=== FILE: README.md ===
# Unemployment-benefit helper: daily-worker eligibility, sidebar search and page patches

The repository is a Streamlit helper for questions about Korean unemployment
benefits. This project models its pure logic in Dafny and proves properties
of that model.

**Daily-worker eligibility.** The same rules appear three times:

- `check_conditions` (app/eligibility_logic.py), modelled in `EligibilityLogic`.
- The form-based page (daily_worker_eligibility1.py), modelled in `DailyWorkerForm`.
  - The look-back period runs from the first of the previous month through the application date.
  - It has a fourteen-day window before the application date.
  - It has the two conditions, the suggested re-application date and the verdicts.
- The calendar page (app/daily_worker_eligibility.py), split across three modules:
  - `DailyWorkerCalendar`, the server side: the calendar's dates, the grouping into one grid per month, the blank cells before each month's first day, the bounds of the fourteen-day window, and the JSON message handler.
  - `CalendarScript`, the embedded JavaScript: `calculateAndDisplayResult` and `toggleDate`.
  - `VerdictComparison`, which relates the calendar page to the form page.

**Sidebar search and dispatch.** `MenuSearch` models both parts of main.py: the search filter over the ordered menu, and the `if`/`elif` choice of the page to show.

**Page patches.** The DOM is a sequence of element records in document order. `Dom` models the selectors and `querySelector`. Three scripts are modelled as pure functions on that sequence:

- `SidebarButton`: static/sidebar_button.js, with the mutation records its writes queue and the observer that listens for them.
- `SidebarToggle`: static/script.js.
- `ChromeHide`: the hiding writes of static/debug.js.

**Supporting modules:**

- `CivilDate`: proleptic Gregorian dates, with day numbers equal to Python's `toordinal` and weekdays equal to Python's `weekday`.
- `DateRange`: runs of consecutive days, and adding or subtracting a number of days.
- `DateFormat`: the `%Y-%m-%d` text of a date. Comparing these texts as strings is comparing the dates.
- `Text`: lower-casing and substring search.
- `Sequences`: having no repeats, and being an in-order subsequence.
- `Wrappers`: `Option` and `Result`.

**Python's float comparison.** Python compares `worked_days < total_days / 3` on floats. The model takes the same comparison on reals. The contracts state it as `3 * worked < total`, which is equivalent.

## The two construction verdicts

The pages disagree on when a construction daily worker may apply, and the model keeps each copy as written:

- **Form page and `check_conditions`.** A construction daily worker may apply when condition 1 **or** condition 2 holds (app/eligibility_logic.py:16, daily_worker_eligibility1.py:86).
- **Calendar page's script.** It requires condition 1 **and** "no work in the fourteen days" (app/daily_worker_eligibility.py:205).

Two lemmas relate the pages:

- `VerdictComparison.ScriptAgainstForm` proves that, on the same application date and the same distinct worked days, the pages agree on everything else:
  - the period length;
  - the worked-day count;
  - condition 1 and condition 2;
  - the general verdict.
- `VerdictComparison.ConstructionVerdictsDiffer` proves that someone who worked only on the day before the application date gets "may apply" on the form page and "may not apply" on the calendar page.

## Model

| member | source | states |
|---|---|---|
| EligibilityLogic.CheckConditions | app/eligibility_logic.py:3-24 | condition 1 holds iff three times the worked days is below the period length (the float threshold `total/3`); condition 2 iff no day in the fourteen was worked; general equals condition 1; construction iff condition 1 or condition 2 |
| EligibilityLogic.GeneralImpliesConstruction | app/eligibility_logic.py:13-16 | whoever may apply as a general daily worker may apply as a construction daily worker |
| EligibilityLogic.Condition1Monotone | app/eligibility_logic.py:7 | with the period fixed, more worked days never make condition 1 hold when it did not |
| EligibilityLogic.IdleFortnightSufficesForConstruction | app/eligibility_logic.py:10-16 | no work in the fourteen days always admits a construction daily worker |
| DailyWorkerForm.GetDateRange | daily_worker_eligibility1.py:8-11 | the start is day 1 of the month before the application date's month; the range runs day by day from the start through the application date, 29 to 62 days |
| DailyWorkerForm.LateEnoughForWindow | daily_worker_eligibility1.py:37-38 | any date with a previous month lies more than 28 days after 0001-01-01, so the fourteen days before it exist |
| DailyWorkerForm.FourteenDayWindow | daily_worker_eligibility1.py:37-42 | the window is the fourteen consecutive days from fourteen days before through one day before the application date, excluding the application date |
| DailyWorkerForm.SelectedCount | daily_worker_eligibility1.py:29-32 | the worked-day count is the number of distinct picks: never more than the picks, and equal to them exactly when no date was picked twice |
| DailyWorkerForm.SelectedSet | daily_worker_eligibility1.py:29 | `set(...)` holds exactly the picked dates |
| DailyWorkerForm.LatestBelow | daily_worker_eligibility1.py:61-63 | the maximum over picks before a limit: absent iff no pick lies before it, otherwise a pick before it that no other such pick exceeds |
| DailyWorkerForm.SuggestionBelow | daily_worker_eligibility1.py:61-65 | a suggestion exists iff some pick lies before the limit; it is fifteen days after the latest such pick (`last_worked + timedelta(days=15)`), so no such pick lies in the fourteen days before it |
| DailyWorkerForm.SuggestedAsWritten | daily_worker_eligibility1.py:59-65 | as written: a suggestion exists iff some pick is strictly before the application date; it is fifteen days after the latest such pick and clears the window of those picks only |
| DailyWorkerForm.Suggested | daily_worker_eligibility1.py:59-65 | corrected: a suggestion exists iff some pick is on or before the application date; it is fifteen days after the latest such pick and clears the window of every such pick |
| DailyWorkerForm.SuggestedIsEarliest | daily_worker_eligibility1.py:65 | every date after the latest worked day and before the corrected suggestion still has a worked day in its window, so no earlier date would do |
| DailyWorkerForm.SuggestedAsWrittenIsEarliest | daily_worker_eligibility1.py:61-65 | every date after the latest pick before the application date and before the as-written suggestion still has such a pick in its window |
| DailyWorkerForm.SuggestedAgreesUnlessApplyDayPicked | daily_worker_eligibility1.py:61-65 | the as-written and corrected suggestions coincide whenever the application day itself was not picked |
| DailyWorkerForm.SuggestedAsWrittenKeepsApplyDayInWindow | daily_worker_eligibility1.py:61-65 | when the application day was worked and condition 2 fails, the as-written suggestion still has the application day in its window |
| DailyWorkerForm.AsWrittenMissesWorkedApplyDay | daily_worker_eligibility1.py:61-65 | working the day before and the application day gives, as written, the day before plus fifteen, which still sees the application day; the corrected suggestion is the application day plus fifteen, which does not |
| DailyWorkerForm.SuggestedAsWrittenCounterexample | daily_worker_eligibility1.py:61-65 | applying on 2025-03-20 after working 03-19 and 03-20: the as-written suggestion keeps 03-20 in its window, the corrected one clears it |
| DailyWorkerForm.Assess | daily_worker_eligibility1.py:24-92 | the page's period length, distinct worked days, condition 1, window bounds (application date minus 14 and minus 1), condition 2 iff no pick in the window, a suggestion only when condition 2 fails, and then the as-written one: fifteen days after the latest pick strictly before the application date (line 62's `d < apply_date`), clearing the window of those picks only; general iff condition 1, construction iff condition 1 or condition 2 |
| DailyWorkerForm.AssessSuggestionClearsUnlessApplyDayPicked | daily_worker_eligibility1.py:59-65 | when the application day itself was not picked, the page's suggestion clears the window of every pick up to the application date |
| DailyWorkerForm.WindowHitsPicks | daily_worker_eligibility1.py:41-44 | scanning the window's dates for a selected one finds one exactly when some pick lies in the fourteen days before the application date |
| DailyWorkerForm.NoHitsMeansZero | daily_worker_eligibility1.py:41-44 | no pick in the window iff the number of picks in the window is zero |
| DailyWorkerForm.AssessAgreesWithCheckConditions | app/eligibility_logic.py:3-24 | the form page's conditions and verdicts are those of `check_conditions` on its period length, distinct worked days and worked days in the window |
| DailyWorkerCalendar.CollectDays | app/daily_worker_eligibility.py:22-26 | the `while current_date <= last_day` loop collects exactly the run of days from the first day through the last |
| DailyWorkerCalendar.CalendarDates | app/daily_worker_eligibility.py:20-26 | the calendar starts on the first of the previous month, ends on the input date, runs day by day, and is the form page's look-back period |
| DailyWorkerCalendar.FindGroup | app/daily_worker_eligibility.py:31 | the lookup finds a group with the key, or reports that no group has it |
| DailyWorkerCalendar.MonthKey | app/daily_worker_eligibility.py:30 | the `%Y-%m` key of a valid date names a month that exists |
| DailyWorkerCalendar.MonthKeySameMonth | app/daily_worker_eligibility.py:30-31 | two dates share a key exactly when they fall in the same month |
| DailyWorkerCalendar.AddToGroups | app/daily_worker_eligibility.py:30-33 | one iteration opens a new group exactly when the date's month has none yet, and never adds more than one group |
| DailyWorkerCalendar.AddToGroupsStep | app/daily_worker_eligibility.py:29-33 | one iteration of the grouping loop keeps: distinct months, each group exactly its month's dates in order, every date's month present |
| DailyWorkerCalendar.GroupByMonth | app/daily_worker_eligibility.py:28-33 | there are never more groups than dates, and there are none exactly when there are no dates |
| DailyWorkerCalendar.GroupByMonthGroupsDates | app/daily_worker_eligibility.py:28-33 | the grouping of any dates has distinct months, each group holds exactly its month's dates in their original order, and every date's month has a group |
| DailyWorkerCalendar.GroupOneRun | app/daily_worker_eligibility.py:28-33 | dates all of one month form a single group holding all of them |
| DailyWorkerCalendar.CalendarGroups | app/daily_worker_eligibility.py:20-33 | the calendar forms exactly two groups, the whole previous month and the input date's month up to the input date, whose concatenation is the calendar |
| DailyWorkerCalendar.StartDayOffset | app/daily_worker_eligibility.py:88-91 | the number of blank cells lies in 0..6, is 0 exactly when the month starts on a Sunday, and is the day number modulo 7 |
| DailyWorkerCalendar.DayLandsInItsWeekdayColumn | app/daily_worker_eligibility.py:88-97 | after the blank cells, every day of the month sits in the column of its own weekday, Sunday first |
| DailyWorkerCalendar.FourteenDayBounds | app/daily_worker_eligibility.py:70-71 | the two bounds are the texts of the dates fourteen days and one day before the input date |
| DailyWorkerCalendar.Dedup | app/daily_worker_eligibility.py:41 | `list(set(data))` has no repeats, the same elements as the data, and is no longer than it |
| DailyWorkerCalendar.HandleJsMessage | app/daily_worker_eligibility.py:36-45 | an empty message keeps the stored selection; text that is not JSON, or JSON that is not a list, gives the empty selection; a list fails iff it has an unhashable element, otherwise gives its elements without repeats |
| DailyWorkerCalendar.DedupIdempotent | app/daily_worker_eligibility.py:41 | handling a stored selection again changes nothing |
| DailyWorkerCalendar.DedupOfDistinct | app/daily_worker_eligibility.py:41 | a list without repeats is kept as it is |
| CalendarScript.Filter | app/daily_worker_eligibility.py:194-196 | `filter` keeps exactly the elements that pass, each as often as the input holds it, as an in-order subsequence of the input |
| CalendarScript.FilterUnique | app/daily_worker_eligibility.py:194-196 | any in-order subsequence of the input that holds each passing element as often as the input does, and nothing else, is the filter's result |
| CalendarScript.FilterBetween | app/daily_worker_eligibility.py:194-196 | the fourteen days are the calendar texts at or after the start text and at or before the end text, each as often as the calendar holds it, in calendar order |
| CalendarScript.Between | app/daily_worker_eligibility.py:194-196 | the filter callback keeps both bounds themselves whenever the start text is not after the end text |
| CalendarScript.FormatAll | app/daily_worker_eligibility.py:69 | the list comprehension gives one `%Y-%m-%d` text per calendar date, the i-th text spelling the i-th date |
| CalendarScript.CalculateResult | app/daily_worker_eligibility.py:189-205 | the period length and worked days are the array lengths; condition 1 iff three times the selected count is below the period length; `noWork14Days` iff no filtered date is selected; general iff condition 1; construction iff condition 1 and `noWork14Days` |
| CalendarScript.FilterSlice | app/daily_worker_eligibility.py:194-196 | a filter that keeps exactly one stretch of positions returns that stretch |
| CalendarScript.CalendarFourteenDays | app/daily_worker_eligibility.py:69-71 | the string filter over the calendar's texts gives exactly the texts of the fourteen days before the input date, in order |
| CalendarScript.TextBetween | app/daily_worker_eligibility.py:194-196 | a date's text passes each string comparison exactly when the date passes the same date comparison |
| CalendarScript.SelectedDates | app/daily_worker_eligibility.py:222-228 | the collected list holds exactly the `data-date`s of the selected cells |
| CalendarScript.SelectedDatesConcat | app/daily_worker_eligibility.py:224-228 | collecting over consecutive stretches of cells concatenates their collections, so document order is kept |
| CalendarScript.Flip | app/daily_worker_eligibility.py:221 | the clicked cell's selection flips and every other cell is unchanged |
| CalendarScript.FlipTwice | app/daily_worker_eligibility.py:221 | clicking the same cell twice restores every cell |
| CalendarScript.ToggleDate | app/daily_worker_eligibility.py:220-228 | after a click, the cells are the flipped cells and the list is the `data-date`s of their selected cells in document order |
| CalendarScript.ToggleChangesOnlyClickedDate | app/daily_worker_eligibility.py:220-228 | with distinct dates, a click adds or removes the clicked date from the list and leaves every other date's membership alone |
| VerdictComparison.FourteenTextsMeetPicks | app/daily_worker_eligibility.py:197 | no pick's text is among the fourteen days' texts exactly when no pick lies in the fourteen days before the application date |
| VerdictComparison.ScriptOnCalendar | app/daily_worker_eligibility.py:189-205 | on the calendar and the picks' texts, the script counts the period and the picks, and `noWork14Days` holds iff no pick is in the fourteen days |
| VerdictComparison.ScriptAgainstForm | app/daily_worker_eligibility.py:189-205 | on the same date and distinct picks, the script and the form page agree on period length, worked days, condition 1, condition 2 and the general verdict; the script's construction verdict is the conjunction, the form's the disjunction |
| VerdictComparison.ConstructionVerdictsDiffer | app/daily_worker_eligibility.py:205 | working only the day before the application date: the form page admits a construction daily worker, the calendar page does not |
| VerdictComparison.OnlyDayBeforeWorked | daily_worker_eligibility1.py:86 | working only the day before the application date meets condition 1, fails condition 2, and still admits a construction daily worker on the form page |
| MenuSearch.AllQuestions | main.py:43-49 | "실업인정" maps to no questions, and "실업급여 신청 가능 시점" has no entry at all |
| MenuSearch.MenuTable | main.py:37-42 | the `menus` dict has four entries with distinct main menus, and each of its sub-menus is one the dispatch knows |
| MenuSearch.SubMatches | main.py:58 | the sub-menu test; an empty query matches every sub-menu, since Python's `'' in s` holds |
| MenuSearch.EntryKept | main.py:60 | the entry test; an empty query keeps every entry |
| MenuSearch.FilterSubs | main.py:56-59 | a sub-menu is kept iff the lowered query occurs in its lowered name or in one of its lowered questions; the kept ones are an in-order subsequence |
| MenuSearch.FilterEntries | main.py:55-61 | an entry appears iff some sub-menu was kept or the query occurs in its lowered name, with its kept sub-menus; main-menu order is kept |
| MenuSearch.FilterMenus | main.py:52-63 | an empty query gives the menus unchanged; otherwise the entries the lowered query keeps, in order |
| MenuSearch.FilterKeepsDistinctMains | main.py:52-63 | the filtered menu still has distinct main-menu names |
| MenuSearch.RecognitionMatchesByNameOnly | main.py:46-58 | "실업인정" has no questions, so a query keeps it only by its own name |
| MenuSearch.SearchIgnoresCase | main.py:52-58 | a query and its lower-cased form keep the same entries |
| MenuSearch.SubMenuPage | main.py:86-97 | the sub-menu at each position of the menu table leads to its own page, the one named by the same position |
| MenuSearch.Dispatch | main.py:86-101 | the welcome hint iff nothing is selected and the search is empty; nothing iff the selection is no sub-menu and the hint does not apply; every sub-menu opens a page |
| MenuSearch.EverySubMenuHasItsOwnPage | main.py:37-42 | every sub-menu of the menu is dispatched on, each to its own page, none to the hint or to nothing |
| SidebarButton.Relabel | static/sidebar_button.js:11-19 | the label pair follows `aria-expanded === 'true'`: "메뉴 닫기"/"메뉴닫기" when expanded, "메뉴 열기"/"메뉴열기" otherwise; only `aria-label` and the content change |
| SidebarButton.UpdateSidebarButtonText | static/sidebar_button.js:3-21 | with no matching button nothing changes; otherwise the first match becomes exactly its relabelled self, its label and text chosen from its own `aria-expanded`, and every other element is untouched; `aria-expanded`, tags, classes and display are never written |
| SidebarButton.UpdateKeepsButton | static/sidebar_button.js:6-19 | after the update, `querySelector` finds the same button, since neither its tag nor its `data-testid` is written |
| SidebarButton.UpdateIdempotent | static/sidebar_button.js:3-21 | running the update twice equals running it once: the document it leaves is a fixed point of it |
| SidebarButton.UpdateRecords | static/sidebar_button.js:8-19 | a run queues no mutation record iff there is no button; otherwise its records (one for `setAttribute('aria-label', …)` even when the value is unchanged, one for replacing the children through `innerHTML`) target the button and reach the observer |
| SidebarButton.Observed | static/sidebar_button.js:29-34 | the observer's `config` is notified of every child-list change and of `aria-label` writes, but not of `class` writes |
| SidebarButton.Rerun | static/sidebar_button.js:24-28 | after the initial run and any number of callbacks the document is the one the initial run left |
| SidebarButton.ObserverNeverSettles | static/sidebar_button.js:24-37 | as written, while the button exists: after any number of callbacks the button is still found and the callback's own writes notify the observer once more |
| SidebarButton.RelabelUnchanged | static/sidebar_button.js:13-19 | relabelling leaves the button as it was exactly when its label and its text already match its state |
| SidebarButton.UpdateIfChanged | static/sidebar_button.js:3-21 | corrected: each write is skipped when it would store what is there; the document is the update's, no record is queued exactly when the update changes nothing, and every record targets the button |
| SidebarButton.CorrectedObserverSettles | static/sidebar_button.js:28-37 | corrected: the callback the first run's writes provoke queues no record, so the observer falls silent |
| SidebarToggle.RemoveClass | static/script.js:4 | removing a token keeps exactly the other tokens |
| SidebarToggle.ToggleClass | static/script.js:4 | `collapsed` is present afterwards iff it was absent before; every other token is unchanged |
| SidebarToggle.ToggleSidebar | static/script.js:1-6 | no sidebar throws before any write; otherwise `collapsed` flips on it, a missing button throws after that write, and a present button gets "메뉴열기" iff `collapsed` is now present, else "메뉴닫기"; the sidebar keeps everything but its classes (and its text when it is itself the button), the button keeps everything but its text (and its classes when it is itself the sidebar), and every other element is untouched |
| SidebarToggle.LabelFor | static/script.js:5 | the ternary gives "메뉴열기" exactly when the sidebar is collapsed, and "메뉴닫기" otherwise |
| SidebarToggle.ToggleKeepsLookups | static/script.js:2-4 | a toggle changes neither which element is the sidebar nor which is the button, nor any other element's classes |
| SidebarToggle.ToggleTwiceRestoresClasses | static/script.js:4-5 | two calls restore every element's class set and end with the label of the original state |
| SidebarToggle.LabelIgnoresOldText | static/script.js:5 | the new label does not depend on the button's previous text |
| ChromeHide.HideFirst | static/debug.js:14-25 | one guarded `querySelector` write hides exactly the first match, if any |
| ChromeHide.Hide | static/debug.js:29 | `style.display = "none"` hides the element and changes nothing else about it |
| ChromeHide.ChromeClass | static/debug.js:28 | the selector group catches every element carrying `stAppHeader`, `stToolbar` or `stMainMenu` as a class token |
| ChromeHide.HideAllChrome | static/debug.js:28-30 | every element whose class attribute contains one of the three names is hidden, and no other |
| ChromeHide.HiddenSameLookup | static/debug.js:14-25 | hiding elements never changes what a later lookup finds |
| ChromeHide.HideChrome | static/debug.js:14-30 | the script keeps every element in place and leaves each one either as it was or hidden |
| ChromeHide.HideChromeExactly | static/debug.js:14-30 | each element ends hidden exactly when one of the writes targets it, and is otherwise left as it was |
| ChromeHide.HideChromeEffects | static/debug.js:14-30 | the first header, toolbar and main-menu elements and every chrome-class element end hidden; nothing is un-hidden; only `display` changes; untargeted elements are untouched |
| ChromeHide.HideChromeIdempotent | static/debug.js:14-30 | running the writes again changes nothing |
| ChromeHide.AppHeaderAlsoSwept | static/debug.js:14-30 | the first `.stAppHeader` element is also caught by the class-substring sweep |
| Dom.Matches | static/debug.js:28 | an element that matches `.name` also matches `[class*='name']`: its class token occurs in the joined class attribute |
| Dom.QuerySelector | static/sidebar_button.js:6 | `querySelector` is absent iff nothing matches, and otherwise the first match in document order |
| Dom.TokenInClassAttribute | static/debug.js:28 | a class token containing a name puts that name in the class attribute, so `.name` elements match `[class*='name']` |
| CivilDate.DayNumber | app/daily_worker_eligibility.py:24 | every representable date has a positive ordinal, January 1 of year 1 being day 1 |
| CivilDate.DayNumberInYear | app/daily_worker_eligibility.py:24 | a valid date's ordinal falls after the days of earlier years and within its own year's days |
| CivilDate.Weekday | app/daily_worker_eligibility.py:89 | `weekday()` is a day of the week, 0 (Monday) to 6 (Sunday) |
| CivilDate.FirstOfPrevMonth | app/daily_worker_eligibility.py:20 | for every date past January of year 1, the start of the previous month is a valid date on a first day of a month |
| CivilDate.NextStep | app/daily_worker_eligibility.py:26 | adding one day gives a valid date whose day number is one more and which comes after it |
| CivilDate.PrevStep | app/daily_worker_eligibility.py:20 | subtracting one day gives a valid date whose day number is one less, and adding one day back returns the original |
| CivilDate.FirstOfPrevMonthSteps | app/daily_worker_eligibility.py:20 | `(d.replace(day=1) - 1 day).replace(day=1)` is the first of the previous month, which lies a whole month before the first of `d`'s month |
| CivilDate.BeforeMeansSmallerDayNumber | app/daily_worker_eligibility.py:24 | Python's date order (year, then month, then day) is day-number order |
| CivilDate.DayNumberInjective | daily_worker_eligibility1.py:29 | two valid dates are equal iff their day numbers are, so the set of picks counts days |
| CivilDate.WeekdayAnchor | app/daily_worker_eligibility.py:89 | the day numbers agree with Python's `weekday()`: 2025-01-01 is a Wednesday (2) |
| CivilDate.DaysBeforeYearClosedForm | app/daily_worker_eligibility.py:20-26 | the running count of days before a year equals the closed form behind Python's ordinals |
| DateRange.DaysFrom | daily_worker_eligibility1.py:11 | the run from start to end has one date per day between them, both included (none when end comes first), and its i-th date is i days after start |
| DateRange.DaysFromMembership | daily_worker_eligibility1.py:11 | a date is in the run from start to end iff its day number lies between theirs |
| DateRange.MinusDays | daily_worker_eligibility1.py:37-38 | subtracting `n` days gives a valid date `n` day numbers earlier |
| DateRange.PlusDays | daily_worker_eligibility1.py:65 | adding `n` days gives a valid date `n` day numbers later |
| DateFormat.Format | app/daily_worker_eligibility.py:69 | `%Y-%m-%d` gives ten characters: digits, with dashes at positions 4 and 7 |
| DateFormat.StrLess | app/daily_worker_eligibility.py:194-196 | JavaScript's string `<` is irreflexive and puts a proper prefix first |
| DateFormat.StrLessTotal | app/daily_worker_eligibility.py:194-196 | of two different strings exactly one is `<` the other |
| DateFormat.FormatOrder | app/daily_worker_eligibility.py:194-196 | for four-digit years, the `YYYY-MM-DD` texts compare as strings exactly as the dates compare, and are equal iff the dates are |
| Text.Lower | main.py:54 | lower-casing keeps the length and maps each character |
| Text.Contains | main.py:58 | Python's `in` on strings: the empty string is in every string, and a string is in another only if it is no longer |
| Text.ContainsAt | main.py:58 | `needle in haystack` iff the needle occurs at some position of the haystack |
| Text.LowerIdempotent | main.py:54-58 | lowering a lowered string changes nothing |

## Left out

- Streamlit rendering, widgets, `st.session_state`, the HTML/CSS strings and the Markdown texts: presentation only. The verdicts are modelled as booleans and the suggestion as an optional date.
- `datetime.now(KST)`, `datetime.today()` and pytz: the application date and the input date are parameters.
- pandas `DateOffset` and `date_range`: modelled by what they mean, with a hand-written civil calendar.
- Float display of the threshold (`toFixed(1)`, `:.1f`): floats are not modelled.
- EligibilityLogic.CheckConditions: the `threshold` entry of the returned dictionary is dropped. Its comparison is kept as `condition1`.
- `json.loads` is not modelled. Its result is an input, `None` when it raises `JSONDecodeError`. JSON numbers are integers only.
- DailyWorkerCalendar.Dedup: `list(set(data))` has an unspecified order in Python. The model keeps first occurrences in order and promises only the element set and the absence of repeats.
- DailyWorkerCalendar.Dedup: equal values of different Python types (`True`, `1` and `1.0`) would merge in a Python set. The model compares JSON values structurally.
- DailyWorkerCalendar.HandleJsMessage: the unhashable-element case is modelled as an error result. In the source it is an uncaught `TypeError`.
- DailyWorkerCalendar.FourteenDayBounds: `strftime("%Y-%m-%d")` is modelled only for years up to 9999, the largest year Python's `date` allows. The model's dates have no upper year bound.
- `localStorage`, `postMessage`, `saveToLocalStorage`, `window.onload` and the `selectedDatesText` and `resultContainer` writes: browser I/O.
- `DOMContentLoaded`, the observer's registration and the microtask timing of its callbacks: event plumbing. The observer's configuration is modelled as `SidebarButton.Observed`, the records as `SidebarButton.UpdateRecords`, and callbacks as running one after another (`SidebarButton.Rerun`). Mutations made by Streamlit itself are not modelled.
- `console.log`, `console.error`, `getComputedStyle`, `getBoundingClientRect`, and the `.custom-header` diagnostics of static/debug.js lines 1-12: diagnostics only.
- `innerHTML` and `textContent` are modelled as a single text field. Markup parsing is not modelled.
- Text.Lower: lower-cases ASCII letters only. Python's `str.lower` is Unicode-wide. The menu names are Hangul, which it leaves unchanged either way.
- Dom.Matches: the class attribute is taken to be the class tokens joined by single spaces.
- SidebarToggle.ToggleClass: `classList.toggle` on a token list with repeats removes every copy, and appends when the token is absent. Browsers keep class lists free of repeats anyway.
- The question getters of the imported app modules are not part of this model. Their lists are parameters of `MenuSearch.AllQuestions`.
- The pages the dispatch opens (wage delay, remote assignment, recognition, early re-employment) are not part of this model. The dispatch names them as page values.
- The buttons of main.py lines 68-78 are not modelled. The sub-menu buttons (lines 68-74) set the selection to their sub-menu and the main-menu-only buttons (lines 75-78) clear it. The dispatch takes the selection as a parameter, `None` when it is cleared.
- app/realjob_application.py and static/스타일grok.py have no logic of their own.
- Three edge cases the model leaves aside cannot be reached through the page, whose `st.date_input` offers dates from ten years before to ten years after today. DateFormat.Format pads years below 1000 to four digits, but glibc's `%Y` does not. CivilDate.HasPreviousMonth excludes January of year 1, where app/daily_worker_eligibility.py line 20 raises `OverflowError`. DateRange.DaysFrom has no bounds, while the pandas `Timestamp` of daily_worker_eligibility1.py line 11 accepts only dates from 1677 to 2262.
- DailyWorkerForm.Assess: does not promise that its suggestion clears a pick on the application date itself, because the page as written does not (see "## Findings"); `DailyWorkerForm.AssessSuggestionClearsUnlessApplyDayPicked` states when it does.

## Findings

| source | as written | input that shows it | evidently intended | confidence | as-written member | corrected member |
|---|---|---|---|---|---|---|
| daily_worker_eligibility1.py:59-65 | the latest worked day is taken over picks strictly before the application date (`d < apply_date`), although the look-back period lets the applicant pick the application date itself | apply on 2025-03-20 with worked days 2025-03-19 and 2025-03-20: the page suggests 2025-04-03, whose fourteen-day window 03-20..04-02 still holds the worked day 03-20 | count picks up to and including the application date (`d <= apply_date`), suggesting 2025-04-04, whose window is free of work | not executed | DailyWorkerForm.SuggestedAsWritten, DailyWorkerForm.Assess, DailyWorkerForm.SuggestedAsWrittenCounterexample | DailyWorkerForm.Suggested, DailyWorkerForm.SuggestedIsEarliest, DailyWorkerForm.SuggestedAgreesUnlessApplyDayPicked |
| static/sidebar_button.js:3-37 | every run calls `setAttribute('aria-label', …)` and assigns `innerHTML`, even when both already hold the right values; the observer watches `aria-label` and child lists over the whole body, so each callback's own writes queue records that call it again | any page where the sidebar button exists: after the first relabel, each callback rewrites the same label and text and provokes the next callback | write the label and the text only when they differ, so the observer falls silent once the label is right | not executed | SidebarButton.UpdateRecords, SidebarButton.ObserverNeverSettles | SidebarButton.UpdateIfChanged, SidebarButton.CorrectedObserverSettles |

=== FILE: calendar_script.dfy ===
/**
 The script embedded in the calendar page of app/daily_worker_eligibility.py:
 `calculateAndDisplayResult`, which decides from the calendar's date strings
 and the selected ones, and `toggleDate`, which flips one day cell and
 re-collects the selection.
 */
module CalendarScript {
  import opened CivilDate
  import opened DateRange
  import opened DateFormat
  import opened Sequences
  import DailyWorkerForm
  import DailyWorkerCalendar

  /** JavaScript's `a >= b` on strings. */
  predicate JsAtLeast(a: string, b: string) {
    !StrLess(a, b)
  }

  /** JavaScript's `a <= b` on strings. */
  predicate JsAtMost(a: string, b: string) {
    !StrLess(b, a)
  }

  /** `Array.prototype.filter`: the elements that pass `keep`, in order. The
      result is a subsequence of the input holding every passing element as
      often as the input does and no other, which fixes it uniquely. */
  function Filter(s: seq<string>, keep: string -> bool): (r: seq<string>)
    ensures forall x :: x in r <==> x in s && keep(x)
    ensures forall x :: multiset(r)[x] == if keep(x) then multiset(s)[x] else 0
    ensures IsSubsequence(r, s)
    ensures |r| <= |s|
  {
    if |s| == 0 then []
    else
      var rest := Filter(s[1..], keep);
      assert forall x :: x in s <==> x == s[0] || x in s[1..];
      assert s == [s[0]] + s[1..];
      assert multiset(s) == multiset([s[0]]) + multiset(s[1..]);
      if keep(s[0]) then
        assert ([s[0]] + rest)[1..] == rest;
        [s[0]] + rest
      else
        SkipHead(rest, s);
        rest
  }

  /** Any subsequence of `s` holding every passing element as often as `s`
      does, and no other, is the filter's result. */
  lemma {:induction false} FilterUnique(s: seq<string>, keep: string -> bool, r: seq<string>)
    requires IsSubsequence(r, s)
    requires forall x :: multiset(r)[x] == if keep(x) then multiset(s)[x] else 0
    ensures r == Filter(s, keep)
  {
    if |s| == 0 {
      assert multiset(r) == multiset{};
    } else {
      var head := s[0];
      assert s == [head] + s[1..];
      assert multiset(s) == multiset([head]) + multiset(s[1..]);
      var starts := |r| > 0 && r[0] == head;
      if !starts {
        if |r| > 0 {
          assert IsSubsequence(r, s[1..]);
        }
        SubsequenceMultiset(r, s[1..]);
        assert multiset(r)[head] <= multiset(s[1..])[head] < multiset(s)[head];
        assert !keep(head);
        assert forall x :: multiset(r)[x] == if keep(x) then multiset(s[1..])[x] else 0;
        FilterUnique(s[1..], keep, r);
      } else {
        assert r == [head] + r[1..];
        assert multiset(r) == multiset([head]) + multiset(r[1..]);
        assert keep(head);
        assert IsSubsequence(r[1..], s[1..]);
        assert forall x :: multiset(r[1..])[x] == if keep(x) then multiset(s[1..])[x] else 0;
        FilterUnique(s[1..], keep, r[1..]);
      }
    }
  }

  /** `date => date >= lo && date <= hi`: both bounds are included whenever
      the range is not empty. */
  function Between(lo: string, hi: string): (r: string -> bool)
    ensures JsAtMost(lo, hi) ==> r(lo) && r(hi)
  {
    x => JsAtLeast(x, lo) && JsAtMost(x, hi)
  }

  /** `CALENDAR_DATES.filter(date => date >= FOURTEEN_DAYS_START && date <= FOURTEEN_DAYS_END)`. */
  function FilterBetween(dates: seq<string>, lo: string, hi: string): (r: seq<string>)
    ensures forall x :: x in r <==> x in dates && JsAtLeast(x, lo) && JsAtMost(x, hi)
    ensures forall x :: multiset(r)[x] == if JsAtLeast(x, lo) && JsAtMost(x, hi) then multiset(dates)[x] else 0
    ensures IsSubsequence(r, dates)
    ensures |r| <= |dates|
  {
    Filter(dates, Between(lo, hi))
  }

  /** What `calculateAndDisplayResult` computes before rendering it. */
  datatype ScriptResult = ScriptResult(
    totalDays: nat,
    workedDays: nat,
    fourteenDays: seq<string>,
    noWork14Days: bool,
    condition1: bool,
    general: bool,
    construction: bool)

  /** `calculateAndDisplayResult(selected)` against `CALENDAR_DATES`,
      `FOURTEEN_DAYS_START` and `FOURTEEN_DAYS_END`. `totalDays / 3` is
      floating-point division, taken here on the reals. */
  function CalculateResult(calendarDates: seq<string>, fourteenStart: string, fourteenEnd: string,
                           selected: seq<string>): (r: ScriptResult)
    ensures r.totalDays == |calendarDates| && r.workedDays == |selected|
    ensures r.condition1 <==> 3 * |selected| < |calendarDates|
    ensures forall x :: x in r.fourteenDays <==>
              x in calendarDates && JsAtLeast(x, fourteenStart) && JsAtMost(x, fourteenEnd)
    ensures r.noWork14Days <==> forall x :: x in r.fourteenDays ==> x !in selected
    ensures r.general == r.condition1
    ensures r.construction <==> r.condition1 && r.noWork14Days
  {
    var totalDays := |calendarDates|;
    var threshold := (totalDays as real) / 3.0;
    var workedDays := |selected|;
    var fourteenDays := FilterBetween(calendarDates, fourteenStart, fourteenEnd);
    var noWork14Days := forall i :: 0 <= i < |fourteenDays| ==> fourteenDays[i] !in selected;
    var condition1 := (workedDays as real) < threshold;
    ScriptResult(totalDays, workedDays, fourteenDays, noWork14Days, condition1, condition1,
                 condition1 && noWork14Days)
  }

  // ---------------------------------------------------------------------------
  // The fourteen days, as strings

  /** Every date of a sequence can be spelled as `YYYY-MM-DD`. */
  predicate AllFormattable(ds: seq<Date>) {
    forall i :: 0 <= i < |ds| ==> Formattable(ds[i])
  }

  /** The `%Y-%m-%d` text of every date of a sequence, in order. */
  function FormatAll(ds: seq<Date>): (r: seq<string>)
    requires AllFormattable(ds)
    ensures |r| == |ds|
    ensures forall i :: 0 <= i < |ds| ==> r[i] == Format(ds[i])
  {
    if |ds| == 0 then [] else [Format(ds[0])] + FormatAll(ds[1..])
  }

  /** Spelling a stretch of a sequence is taking that stretch of its spelling. */
  lemma {:induction false} FormatAllSlice(ds: seq<Date>, a: nat, b: nat)
    requires AllFormattable(ds) && a <= b <= |ds|
    ensures AllFormattable(ds[a..b]) && FormatAll(ds)[a..b] == FormatAll(ds[a..b])
  {
    var whole := FormatAll(ds);
    var part := ds[a..b];
    assert forall k :: 0 <= k < |part| ==> part[k] == ds[a + k];
    var text := FormatAll(part);
    assert |text| == b - a;
    forall k | 0 <= k < b - a ensures whole[a..b][k] == text[k] {
      assert whole[a..b][k] == whole[a + k] == Format(ds[a + k]);
    }
  }

  /** Every date of a run up to a four-digit year can be spelled. */
  lemma RunFormattable(start: Date, end: Date)
    requires Valid(start) && Valid(end) && end.year <= 9999
    ensures AllFormattable(DaysFrom(start, end))
  {
    var r := DaysFrom(start, end);
    forall i | 0 <= i < |r| ensures r[i].year <= 9999 {
      DailyWorkerCalendar.YearNotAfter(r[i], end);
    }
  }

  /** When the texts that pass the filter are exactly those at positions
      `a` up to `b`, the filter returns that stretch, in order. */
  lemma {:induction false} FilterSlice(s: seq<string>, keep: string -> bool, a: nat, b: nat)
    requires a <= b <= |s|
    requires forall i :: 0 <= i < |s| ==> (keep(s[i]) <==> a <= i < b)
    ensures Filter(s, keep) == s[a..b]
    decreases |s|
  {
    if |s| > 0 {
      var a', b' := if a > 0 then a - 1 else 0, if b > 0 then b - 1 else 0;
      TailKeeps(s, keep, a, b);
      FilterSlice(s[1..], keep, a', b');
      FilterUnfold(s, keep);
      SliceUnfold(s, a, b);
    }
  }

  /** The slice condition of `FilterSlice`, moved one element along. */
  lemma TailKeeps(s: seq<string>, keep: string -> bool, a: nat, b: nat)
    requires 0 < |s| && a <= b <= |s|
    requires forall i :: 0 <= i < |s| ==> (keep(s[i]) <==> a <= i < b)
    ensures keep(s[0]) <==> a == 0 && b > 0
    ensures var a', b' := if a > 0 then a - 1 else 0, if b > 0 then b - 1 else 0;
      && a' <= b' <= |s[1..]|
      && forall i :: 0 <= i < |s[1..]| ==> (keep(s[1..][i]) <==> a' <= i < b')
  {
    forall i | 0 <= i < |s[1..]| ensures s[1..][i] == s[i + 1] { }
  }

  /** One step of `Filter`. */
  lemma FilterUnfold(s: seq<string>, keep: string -> bool)
    requires 0 < |s|
    ensures Filter(s, keep) == (if keep(s[0]) then [s[0]] else []) + Filter(s[1..], keep)
  {
  }

  /** A slice of a non-empty sequence, split at its first element. */
  lemma SliceUnfold(s: seq<string>, a: nat, b: nat)
    requires 0 < |s| && a <= b <= |s|
    ensures var a', b' := if a > 0 then a - 1 else 0, if b > 0 then b - 1 else 0;
      s[a..b] == (if a == 0 && b > 0 then [s[0]] else []) + s[1..][a'..b']
  {
    if a > 0 {
      assert s[a..b] == s[1..][a - 1..b - 1];
    } else if b > 0 {
      assert s[1..][0..b - 1] == s[1..b];
      assert s[0..b] == [s[0]] + s[1..b];
    } else {
      assert s[0..0] == [] == s[1..][0..0];
    }
  }

  /** The browser's string filter over the calendar's texts picks out exactly
      the texts of the fourteen days before the input date, in order: the
      whole window lies in the calendar, and string order is date order. */
  lemma {:induction false} CalendarFourteenDays(inputDate: Date)
    requires HasPreviousMonth(inputDate) && inputDate.year <= 9999
    ensures DayNumber(inputDate) > 14
    ensures AllFormattable(DailyWorkerForm.GetDateRange(inputDate).0)
    ensures AllFormattable(DailyWorkerForm.FourteenDayWindow(inputDate))
    ensures FilterBetween(FormatAll(DailyWorkerForm.GetDateRange(inputDate).0),
                          DailyWorkerCalendar.FourteenDayBounds(inputDate).0,
                          DailyWorkerCalendar.FourteenDayBounds(inputDate).1)
            == FormatAll(DailyWorkerForm.FourteenDayWindow(inputDate))
  {
    DailyWorkerForm.LateEnoughForWindow(inputDate);
    var lo := MinusDays(inputDate, DailyWorkerForm.WindowDays);
    var hi := MinusDays(inputDate, 1);
    CalendarFilter(inputDate, lo, hi);
    assert DailyWorkerCalendar.FourteenDayBounds(inputDate) == (Format(lo), Format(hi));
  }

  /** `CalendarFourteenDays` for bounds given by their day numbers. */
  lemma {:induction false} CalendarFilter(inputDate: Date, lo: Date, hi: Date)
    requires HasPreviousMonth(inputDate) && inputDate.year <= 9999
    requires Valid(lo) && Valid(hi)
    requires DayNumber(lo) == DayNumber(inputDate) - 14 && DayNumber(hi) == DayNumber(inputDate) - 1
    ensures DayNumber(inputDate) > 14
    ensures AllFormattable(DailyWorkerForm.GetDateRange(inputDate).0)
    ensures AllFormattable(DailyWorkerForm.FourteenDayWindow(inputDate))
    ensures Formattable(lo) && Formattable(hi)
    ensures FilterBetween(FormatAll(DailyWorkerForm.GetDateRange(inputDate).0), Format(lo), Format(hi))
            == FormatAll(DailyWorkerForm.FourteenDayWindow(inputDate))
  {
    DailyWorkerForm.LateEnoughForWindow(inputDate);
    var calDates := DailyWorkerForm.GetDateRange(inputDate).0;
    var window := DailyWorkerForm.FourteenDayWindow(inputDate);
    assert AllFormattable(calDates) by {
      DailyWorkerForm.GetDateRangeIsRun(inputDate);
      RunFormattable(calDates[0], inputDate);
    }
    assert AllFormattable(window) by {
      WindowFormattable(window, inputDate);
    }
    assert Formattable(lo) && Formattable(hi) by {
      DailyWorkerCalendar.YearNotAfter(lo, inputDate);
      DailyWorkerCalendar.YearNotAfter(hi, inputDate);
    }
    WindowFilter(calDates, window, lo, hi);
  }

  /** Dates no later than a four-digit-year date can be spelled. */
  lemma {:induction false} WindowFormattable(ds: seq<Date>, bound: Date)
    requires Formattable(bound)
    requires forall k :: 0 <= k < |ds| ==> Valid(ds[k]) && DayNumber(ds[k]) <= DayNumber(bound)
    ensures AllFormattable(ds)
  {
    forall k | 0 <= k < |ds| ensures Formattable(ds[k]) {
      DailyWorkerCalendar.YearNotAfter(ds[k], bound);
    }
  }

  /** On a run of consecutive dates whose last fifteen days are the fourteen
      days from `lo` and one more, the filter keeps exactly those fourteen. */
  lemma {:induction false} WindowFilter(calDates: seq<Date>, window: seq<Date>, lo: Date, hi: Date)
    requires AllFormattable(calDates) && AllFormattable(window) && Formattable(lo) && Formattable(hi)
    requires |calDates| >= 15 && |window| == 14
    requires forall i :: 0 <= i < |calDates| ==> DayNumber(calDates[i]) == DayNumber(calDates[0]) + i
    requires DayNumber(lo) == DayNumber(calDates[0]) + |calDates| - 15
    requires DayNumber(hi) == DayNumber(lo) + 13
    requires forall k :: 0 <= k < 14 ==> DayNumber(window[k]) == DayNumber(lo) + k
    ensures FilterBetween(FormatAll(calDates), Format(lo), Format(hi)) == FormatAll(window)
  {
    var b := |calDates| - 1;
    var a := b - 14;
    WindowPositions(calDates, lo, hi);
    RunTextFilter(calDates, lo, hi, a, b);
    SameDaysSameText(calDates, a, window);
  }

  /** On such a run, the dates between `lo` and `hi` are the fourteen before
      the last. */
  lemma WindowPositions(calDates: seq<Date>, lo: Date, hi: Date)
    requires |calDates| >= 15
    requires forall i :: 0 <= i < |calDates| ==> DayNumber(calDates[i]) == DayNumber(calDates[0]) + i
    requires DayNumber(lo) == DayNumber(calDates[0]) + |calDates| - 15
    requires DayNumber(hi) == DayNumber(lo) + 13
    ensures forall i :: 0 <= i < |calDates| ==>
      (DayNumber(lo) <= DayNumber(calDates[i]) <= DayNumber(hi) <==> |calDates| - 15 <= i < |calDates| - 1)
  {
  }

  /** Filtering the texts of a sequence of dates by the texts of two bounds
      keeps the texts of the dates between the bounds, when those form one
      stretch of the sequence. */
  lemma {:induction false} RunTextFilter(ds: seq<Date>, lo: Date, hi: Date, a: nat, b: nat)
    requires AllFormattable(ds) && Formattable(lo) && Formattable(hi)
    requires a <= b <= |ds|
    requires forall i :: 0 <= i < |ds| ==> (DayNumber(lo) <= DayNumber(ds[i]) <= DayNumber(hi) <==> a <= i < b)
    ensures AllFormattable(ds[a..b])
    ensures FilterBetween(FormatAll(ds), Format(lo), Format(hi)) == FormatAll(ds[a..b])
  {
    TextBetween(ds, lo, hi);
    FilterSlice(FormatAll(ds), Between(Format(lo), Format(hi)), a, b);
    FormatAllSlice(ds, a, b);
  }

  /** A date's text passes the string filter exactly when the date lies
      between the bounds. */
  lemma {:induction false} TextBetween(ds: seq<Date>, lo: Date, hi: Date)
    requires AllFormattable(ds) && Formattable(lo) && Formattable(hi)
    ensures forall i :: 0 <= i < |ds| ==>
      (JsAtLeast(FormatAll(ds)[i], Format(lo)) && JsAtMost(FormatAll(ds)[i], Format(hi))
       <==> DayNumber(lo) <= DayNumber(ds[i]) <= DayNumber(hi))
  {
    forall i | 0 <= i < |ds|
      ensures JsAtLeast(Format(ds[i]), Format(lo)) <==> DayNumber(lo) <= DayNumber(ds[i])
      ensures JsAtMost(Format(ds[i]), Format(hi)) <==> DayNumber(ds[i]) <= DayNumber(hi)
    {
      FormatOrder(ds[i], lo);
      FormatOrder(hi, ds[i]);
    }
  }

  /** A stretch of dates that agrees day by day with another sequence
      spells the same texts. */
  lemma {:induction false} SameDaysSameText(ds: seq<Date>, a: nat, es: seq<Date>)
    requires a + |es| <= |ds|
    requires AllFormattable(ds[a..a + |es|]) && AllFormattable(es)
    requires forall k :: 0 <= k < |es| ==> DayNumber(ds[a + k]) == DayNumber(es[k])
    ensures FormatAll(ds[a..a + |es|]) == FormatAll(es)
  {
    var part := ds[a..a + |es|];
    forall k | 0 <= k < |es| ensures part[k] == es[k] {
      assert part[k] == ds[a + k];
      assert Valid(ds[a + k]) && Valid(es[k]);
      DayNumberInjective(ds[a + k], es[k]);
    }
    assert part == es;
  }

  // ---------------------------------------------------------------------------
  // Toggling a day cell

  /** A `div.day` cell: its `data-date` and whether it has class `selected`. */
  datatype DayCell = DayCell(date: string, selected: bool)

  /** The `data-date`s of the selected cells, in document order. */
  function SelectedDates(days: seq<DayCell>): (r: seq<string>)
    ensures |r| <= |days|
    ensures forall x :: x in r <==> exists j :: 0 <= j < |days| && days[j].selected && days[j].date == x
  {
    if |days| == 0 then []
    else
      var prefix := days[..|days| - 1];
      var last := days[|days| - 1];
      assert forall j :: 0 <= j < |prefix| ==> prefix[j] == days[j];
      SelectedDates(prefix) + (if last.selected then [last.date] else [])
  }

  /** Collecting the selection from consecutive stretches of cells is
      collecting from each stretch in turn: the result follows document order. */
  lemma {:induction false} SelectedDatesConcat(a: seq<DayCell>, b: seq<DayCell>)
    ensures SelectedDates(a + b) == SelectedDates(a) + SelectedDates(b)
    decreases |b|
  {
    if |b| == 0 {
      assert a + b == a;
    } else {
      var bPrefix := b[..|b| - 1];
      var last := b[|b| - 1];
      SelectedDatesConcat(a, bPrefix);
      assert (a + b)[..|a + b| - 1] == a + bPrefix;
      assert (a + b)[|a + b| - 1] == last;
    }
  }

  /** `element.classList.toggle('selected')` on the `i`-th cell. */
  function Flip(days: seq<DayCell>, i: nat): (r: seq<DayCell>)
    requires i < |days|
    ensures |r| == |days|
    ensures r[i].date == days[i].date && r[i].selected == !days[i].selected
    ensures forall j :: 0 <= j < |days| && j != i ==> r[j] == days[j]
  {
    days[i := DayCell(days[i].date, !days[i].selected)]
  }

  /** Toggling the same cell twice restores every cell. */
  lemma FlipTwice(days: seq<DayCell>, i: nat)
    requires i < |days|
    ensures Flip(Flip(days, i), i) == days
  {
  }

  /** `toggleDate(element)`: flip the clicked cell, then walk every day cell
      in document order collecting the `data-date` of the selected ones. */
  method ToggleDate(days: seq<DayCell>, i: nat) returns (newDays: seq<DayCell>, selected: seq<string>)
    requires i < |days|
    ensures newDays == Flip(days, i)
    ensures selected == SelectedDates(newDays)
  {
    newDays := Flip(days, i);
    selected := [];
    var k := 0;
    while k < |newDays|
      invariant 0 <= k <= |newDays|
      invariant selected == SelectedDates(newDays[..k])
    {
      assert newDays[..k + 1][..k] == newDays[..k];
      if newDays[k].selected {
        selected := selected + [newDays[k].date];
      }
      k := k + 1;
    }
    assert newDays[..k] == newDays;
  }

  /** When the cells' dates are distinct, toggling changes the collected
      selection only at the clicked cell's date. */
  lemma ToggleChangesOnlyClickedDate(days: seq<DayCell>, i: nat, x: string)
    requires i < |days|
    requires forall j, k :: 0 <= j < k < |days| ==> days[j].date != days[k].date
    ensures x in SelectedDates(Flip(days, i)) <==>
      if x == days[i].date then !days[i].selected else x in SelectedDates(days)
  {
    var flipped := Flip(days, i);
    if x == days[i].date {
      if x in SelectedDates(flipped) {
        var j :| 0 <= j < |flipped| && flipped[j].selected && flipped[j].date == x;
        assert j == i;
      }
      if x in SelectedDates(days) {
        var j :| 0 <= j < |days| && days[j].selected && days[j].date == x;
        assert j == i;
      }
    } else {
      if x in SelectedDates(flipped) {
        var j :| 0 <= j < |flipped| && flipped[j].selected && flipped[j].date == x;
        assert days[j] == flipped[j];
      }
      if x in SelectedDates(days) {
        var j :| 0 <= j < |days| && days[j].selected && days[j].date == x;
        assert days[j] == flipped[j];
      }
    }
  }
}

=== FILE: chrome_hide.dfy ===
/**
 The hiding writes of static/debug.js: Streamlit's header, toolbar and main
 menu are hidden through their first `querySelector` matches, then every
 element whose `class` attribute mentions one of them is hidden as well.
 The script only ever writes `style.display = "none"`.
 */
module ChromeHide {
  import opened Wrappers
  import opened Text
  import opened Dom

  const AppHeader: Selector := ClassSelector("stAppHeader")
  const Toolbar: Selector := TestIdSelector("stToolbar")
  const MainMenu: Selector := TestIdSelector("stMainMenu")

  /** `el.style.display = "none"`. */
  function Hide(e: Element): (r: Element)
    ensures r.display == "none" && r.(display := e.display) == e
  {
    e.(display := "none")
  }

  /** Hiding touches no field a selector looks at. */
  lemma HideKeepsMatches(e: Element, sel: Selector)
    ensures Matches(Hide(e), sel) <==> Matches(e, sel)
  {
  }

  /** `e`, hidden when `hidden` holds. */
  function HideIf(e: Element, hidden: bool): Element {
    if hidden then Hide(e) else e
  }

  /** `if (document.querySelector(sel)) document.querySelector(sel).style.display = "none"`. */
  function HideFirst(doc: seq<Element>, sel: Selector): (r: seq<Element>)
    ensures |r| == |doc|
    ensures forall j :: 0 <= j < |doc| ==> r[j] == HideIf(doc[j], QuerySelector(doc, sel) == Some(j))
  {
    match QuerySelector(doc, sel)
    case None => doc
    case Some(i) => doc[i := Hide(doc[i])]
  }

  /** `[class*='stAppHeader'], [class*='stToolbar'], [class*='stMainMenu']`. */
  predicate ChromeClass(e: Element): (b: bool)
    ensures (|| Matches(e, ClassSelector("stAppHeader"))
             || Matches(e, ClassSelector("stToolbar"))
             || Matches(e, ClassSelector("stMainMenu"))) ==> b
  {
    || Matches(e, ClassContainsSelector("stAppHeader"))
    || Matches(e, ClassContainsSelector("stToolbar"))
    || Matches(e, ClassContainsSelector("stMainMenu"))
  }

  /** `document.querySelectorAll(…).forEach(el => el.style.display = "none")`. */
  function HideAllChrome(doc: seq<Element>): (r: seq<Element>)
    ensures |r| == |doc|
    ensures forall j :: 0 <= j < |doc| ==> r[j] == if ChromeClass(doc[j]) then Hide(doc[j]) else doc[j]
  {
    if |doc| == 0 then []
    else [if ChromeClass(doc[0]) then Hide(doc[0]) else doc[0]] + HideAllChrome(doc[1..])
  }

  /** Hiding elements never changes what a selector finds. */
  lemma HiddenSameLookup(doc: seq<Element>, other: seq<Element>, sel: Selector)
    requires |doc| == |other|
    requires forall j :: 0 <= j < |doc| ==> other[j] == doc[j] || other[j] == Hide(doc[j])
    ensures QuerySelector(other, sel) == QuerySelector(doc, sel)
  {
    forall j | 0 <= j < |doc| ensures Matches(other[j], sel) <==> Matches(doc[j], sel) {
      HideKeepsMatches(doc[j], sel);
    }
    QuerySelectorAgrees(other, doc, sel);
  }

  /** Whether an element is swept depends on its classes alone. */
  lemma SameClassesSameChrome(e: Element, f: Element)
    requires e.classes == f.classes
    ensures ChromeClass(e) == ChromeClass(f)
  {
  }

  /** The element at position `j` is one the script writes to: a first match
      of the three single-element lookups, or a chrome-class element. */
  predicate Targeted(doc: seq<Element>, j: nat) {
    || QuerySelector(doc, AppHeader) == Some(j)
    || QuerySelector(doc, Toolbar) == Some(j)
    || QuerySelector(doc, MainMenu) == Some(j)
    || (j < |doc| && ChromeClass(doc[j]))
  }

  /** The whole hiding part of the script, in its order. */
  function HideChrome(doc: seq<Element>): (r: seq<Element>)
    ensures |r| == |doc|
    ensures forall j :: 0 <= j < |doc| ==> r[j] == doc[j] || r[j] == Hide(doc[j])
  {
    HideAllChrome(HideFirst(HideFirst(HideFirst(doc, AppHeader), Toolbar), MainMenu))
  }

  /** Each element ends hidden exactly when the script targets it, and is
      otherwise left as it was. */
  lemma {:induction false} HideChromeExactly(doc: seq<Element>)
    ensures |HideChrome(doc)| == |doc|
    ensures forall j :: 0 <= j < |doc| ==> HideChrome(doc)[j] == HideIf(doc[j], Targeted(doc, j))
  {
    var afterHeader := HideFirst(doc, AppHeader);
    assert forall j :: 0 <= j < |doc| ==> afterHeader[j] == doc[j] || afterHeader[j] == Hide(doc[j]);
    HiddenSameLookup(doc, afterHeader, Toolbar);
    HiddenSameLookup(doc, afterHeader, MainMenu);
    var afterToolbar := HideFirst(afterHeader, Toolbar);
    assert forall j :: 0 <= j < |doc| ==> afterToolbar[j] == doc[j] || afterToolbar[j] == Hide(doc[j]);
    HiddenSameLookup(doc, afterToolbar, MainMenu);
    var afterMenu := HideFirst(afterToolbar, MainMenu);
    var r := HideAllChrome(afterMenu);
    forall j | 0 <= j < |doc| ensures r[j] == HideIf(doc[j], Targeted(doc, j)) {
      var e := doc[j];
      var first := QuerySelector(doc, AppHeader) == Some(j) || QuerySelector(doc, Toolbar) == Some(j)
                   || QuerySelector(doc, MainMenu) == Some(j);
      assert afterMenu[j] == HideIf(e, first);
      SameClassesSameChrome(afterMenu[j], e);
    }
  }

  /** What the script promises of the document `r` it leaves behind: the
      first header, toolbar and main-menu elements and every chrome-class
      element end hidden, hidden elements stay hidden, only `display` ever
      changes, and every other element is untouched. */
  predicate HidesAsPromised(doc: seq<Element>, r: seq<Element>)
    requires |r| == |doc|
  {
    && (forall j :: 0 <= j < |doc| && ChromeClass(doc[j]) ==> r[j].display == "none")
    && (QuerySelector(doc, AppHeader).Some? ==> r[QuerySelector(doc, AppHeader).value].display == "none")
    && (QuerySelector(doc, Toolbar).Some? ==> r[QuerySelector(doc, Toolbar).value].display == "none")
    && (QuerySelector(doc, MainMenu).Some? ==> r[QuerySelector(doc, MainMenu).value].display == "none")
    && (forall j :: 0 <= j < |doc| && doc[j].display == "none" ==> r[j].display == "none")
    && (forall j :: 0 <= j < |doc| ==> r[j].(display := doc[j].display) == doc[j])
    && (forall j :: 0 <= j < |doc| && !Targeted(doc, j) ==> r[j] == doc[j])
  }

  /** The script keeps its promises. */
  lemma HideChromeEffects(doc: seq<Element>)
    ensures HidesAsPromised(doc, HideChrome(doc))
  {
    HideChromeExactly(doc);
    HidingTargetsKeepsPromises(doc, HideChrome(doc));
  }

  /** Hiding exactly the targeted elements keeps the promises. */
  lemma HidingTargetsKeepsPromises(doc: seq<Element>, r: seq<Element>)
    requires |r| == |doc|
    requires forall j :: 0 <= j < |doc| ==> r[j] == HideIf(doc[j], Targeted(doc, j))
    ensures HidesAsPromised(doc, r)
  {
    forall j | 0 <= j < |doc|
      ensures Targeted(doc, j) ==> r[j].display == "none"
      ensures doc[j].display == "none" ==> r[j].display == "none"
      ensures r[j].(display := doc[j].display) == doc[j]
      ensures !Targeted(doc, j) ==> r[j] == doc[j]
    {
      assert r[j] == HideIf(doc[j], Targeted(doc, j));
    }
    assert forall j :: 0 <= j < |doc| && ChromeClass(doc[j]) ==> Targeted(doc, j);
  }

  /** Running the script again changes nothing. */
  lemma {:induction false} HideChromeIdempotent(doc: seq<Element>)
    ensures HideChrome(HideChrome(doc)) == HideChrome(doc)
  {
    HideChromeExactly(doc);
    var once := HideChrome(doc);
    HideChromeExactly(once);
    assert forall j :: 0 <= j < |doc| ==> once[j] == doc[j] || once[j] == Hide(doc[j]);
    HiddenSameLookup(doc, once, AppHeader);
    HiddenSameLookup(doc, once, Toolbar);
    HiddenSameLookup(doc, once, MainMenu);
    var twice := HideChrome(once);
    forall j | 0 <= j < |doc| ensures twice[j] == once[j] {
      SameClassesSameChrome(once[j], doc[j]);
      assert Targeted(once, j) == Targeted(doc, j);
    }
  }

  /** The first `.stAppHeader` write is also made by the class-substring
      sweep: a `stAppHeader` class token puts the name in the `class`
      attribute. */
  lemma AppHeaderAlsoSwept(doc: seq<Element>)
    requires QuerySelector(doc, AppHeader).Some?
    ensures ChromeClass(doc[QuerySelector(doc, AppHeader).value])
  {
    var i := QuerySelector(doc, AppHeader).value;
    assert "stAppHeader" <= "stAppHeader";
    TokenInClassAttribute(doc[i].classes, "stAppHeader", "stAppHeader");
  }
}

=== FILE: civil_date.dfy ===
/**
 Proleptic Gregorian calendar dates, as Python's `datetime.date` sees them.

 A date is a (year, month, day) record; `DayNumber` is its ordinal, the number
 Python's `date.toordinal()` returns (0001-01-01 is day 1). Adding or
 subtracting a `timedelta(days=n)` is stepping the record forward or backward
 n times, and comparing two dates is comparing their day numbers.
 */
module CivilDate {

  datatype Date = Date(year: int, month: int, day: int)

  predicate IsLeapYear(y: int) {
    y % 4 == 0 && (y % 100 != 0 || y % 400 == 0)
  }

  function DaysInYear(y: int): int {
    if IsLeapYear(y) then 366 else 365
  }

  /** Length of month `m` (1-based) of year `y`; 0 outside 1..12. */
  function DaysInMonth(y: int, m: int): int {
    if m == 2 then (if IsLeapYear(y) then 29 else 28)
    else if m == 4 || m == 6 || m == 9 || m == 11 then 30
    else if 1 <= m <= 12 then 31
    else 0
  }

  /** Days of year `y` that lie before the first of month `m` (m in 1..13). */
  function DaysBeforeMonth(y: int, m: int): int {
    var leap := if IsLeapYear(y) then 1 else 0;
    if m <= 1 then 0
    else if m == 2 then 31
    else if m == 3 then 59 + leap
    else if m == 4 then 90 + leap
    else if m == 5 then 120 + leap
    else if m == 6 then 151 + leap
    else if m == 7 then 181 + leap
    else if m == 8 then 212 + leap
    else if m == 9 then 243 + leap
    else if m == 10 then 273 + leap
    else if m == 11 then 304 + leap
    else if m == 12 then 334 + leap
    else 365 + leap
  }

  /** Days before January 1 of year `y`, counting from January 1 of year 1. */
  function DaysBeforeYear(y: int): int
    decreases y
  {
    if y <= 1 then 0 else DaysBeforeYear(y - 1) + DaysInYear(y - 1)
  }

  /** A date Python can represent at the low end (MINYEAR is 1). */
  predicate Valid(d: Date) {
    1 <= d.year && 1 <= d.month <= 12 && 1 <= d.day <= DaysInMonth(d.year, d.month)
  }

  /** Python's `date.toordinal()`: January 1 of year 1 is day 1, so every
      representable date has a positive number. */
  function DayNumber(d: Date): (n: int)
    ensures Valid(d) ==> n >= 1
  {
    DaysBeforeYearNonNegative(d.year);
    DaysBeforeYear(d.year) + DaysBeforeMonth(d.year, d.month) + d.day
  }

  /** Python's `date.weekday()`: Monday is 0, Sunday is 6. */
  function Weekday(d: Date): (w: int)
    ensures 0 <= w <= 6
  {
    (DayNumber(d) + 6) % 7
  }

  /** The following day, `d + timedelta(days=1)`. */
  function Next(d: Date): Date {
    if d.day < DaysInMonth(d.year, d.month) then Date(d.year, d.month, d.day + 1)
    else if d.month < 12 then Date(d.year, d.month + 1, 1)
    else Date(d.year + 1, 1, 1)
  }

  /** The preceding day, `d - timedelta(days=1)`. */
  function Prev(d: Date): Date {
    if d.day > 1 then Date(d.year, d.month, d.day - 1)
    else if d.month > 1 then Date(d.year, d.month - 1, DaysInMonth(d.year, d.month - 1))
    else Date(d.year - 1, 12, 31)
  }

  /** `d.replace(day=1)`. */
  function FirstOfMonth(d: Date): Date {
    Date(d.year, d.month, 1)
  }

  /** Python refuses every date before 0001-01-01, so a date in January of
      year 1 has no previous month to start a range from. */
  predicate HasPreviousMonth(d: Date) {
    Valid(d) && (d.year > 1 || d.month > 1)
  }

  /** Lexicographic order on (year, month, day). */
  predicate Before(a: Date, b: Date) {
    a.year < b.year
    || (a.year == b.year && a.month < b.month)
    || (a.year == b.year && a.month == b.month && a.day < b.day)
  }

  // ---------------------------------------------------------------------------
  // Facts about the tables

  lemma MonthTable(y: int, m: int)
    requires 1 <= m <= 12
    ensures DaysBeforeMonth(y, m + 1) == DaysBeforeMonth(y, m) + DaysInMonth(y, m)
    ensures DaysBeforeMonth(y, 13) == DaysInYear(y)
    ensures 28 <= DaysInMonth(y, m) <= 31
  {
  }

  /** The days before year `b` include all of every earlier year `a`. */
  lemma {:induction false} DaysBeforeYearGrows(a: int, b: int)
    requires 1 <= a < b
    ensures DaysBeforeYear(a) + DaysInYear(a) <= DaysBeforeYear(b)
    decreases b - a
  {
    if a + 1 < b {
      DaysBeforeYearGrows(a + 1, b);
    }
  }

  /** Where a valid date's day number falls inside its year. */
  lemma DayNumberInYear(d: Date)
    requires Valid(d)
    ensures DaysBeforeYear(d.year) < DayNumber(d) <= DaysBeforeYear(d.year) + DaysInYear(d.year)
  {
    MonthTable(d.year, d.month);
    assert DaysBeforeMonth(d.year, d.month + 1) <= DaysBeforeMonth(d.year, 13);
  }

  lemma DaysBeforeYearNonNegative(y: int)
    ensures DaysBeforeYear(y) >= 0
    decreases y
  {
    if y > 1 {
      DaysBeforeYearNonNegative(y - 1);
    }
  }

  /** Stepping a count by one raises its quotient by a divisor exactly when
      the new count is a multiple of it. */
  lemma DivStep(n: int, k: int)
    requires n >= 1 && (k == 4 || k == 100 || k == 400)
    ensures n / k == (n - 1) / k + (if n % k == 0 then 1 else 0)
  {
    var q := (n - 1) / k;
    var r := (n - 1) % k;
    assert n - 1 == q * k + r && 0 <= r < k;
    if r == k - 1 {
      assert n == (q + 1) * k;
    } else {
      assert n == q * k + (r + 1) && 0 < r + 1 < k;
    }
  }

  /** The leap-year rule as a sum of divisibility indicators. */
  lemma LeapIndicator(n: int)
    ensures (if IsLeapYear(n) then 1 else 0)
      == (if n % 4 == 0 then 1 else 0) - (if n % 100 == 0 then 1 else 0) + (if n % 400 == 0 then 1 else 0)
  {
    if n % 400 == 0 {
      assert n == 400 * (n / 400) && n == 100 * (4 * (n / 400));
    }
    if n % 100 == 0 {
      assert n == 100 * (n / 100) && n == 4 * (25 * (n / 100));
    }
  }

  /** The running count agrees with the closed form Python's `datetime`
      module uses for the days before a year. */
  lemma {:induction false} DaysBeforeYearClosedForm(y: int)
    requires y >= 1
    ensures DaysBeforeYear(y) == 365 * (y - 1) + (y - 1) / 4 - (y - 1) / 100 + (y - 1) / 400
    decreases y
  {
    if y > 1 {
      DaysBeforeYearClosedForm(y - 1);
      DivStep(y - 1, 4);
      DivStep(y - 1, 100);
      DivStep(y - 1, 400);
      LeapIndicator(y - 1);
    }
  }

  /** Day numbers of valid dates are positive. */
  lemma DayNumberPositive(d: Date)
    requires Valid(d)
    ensures DayNumber(d) >= 1
  {
    DaysBeforeYearNonNegative(d.year);
  }

  /** The ordinal fixes the weekday convention: 2025-01-01 was a Wednesday,
      which `weekday()` numbers 2. */
  lemma WeekdayAnchor(d: Date)
    requires d == Date(2025, 1, 1)
    ensures Weekday(d) == 2
  {
    DaysBeforeYearClosedForm(d.year);
    assert DaysBeforeYear(d.year) == 739251;
    assert DayNumber(d) == 739252;
  }

  // ---------------------------------------------------------------------------
  // Stepping one day

  /** `Next` stays a valid date and advances the ordinal by exactly one. */
  lemma NextStep(d: Date)
    requires Valid(d)
    ensures Valid(Next(d))
    ensures DayNumber(Next(d)) == DayNumber(d) + 1
    ensures Before(d, Next(d))
  {
    MonthTable(d.year, d.month);
    if d.day == DaysInMonth(d.year, d.month) && d.month == 12 {
      assert DaysBeforeYear(d.year + 1) == DaysBeforeYear(d.year) + DaysInYear(d.year);
    }
  }

  /** `Prev` undoes `Next`, stays valid and retreats the ordinal by one;
      only 0001-01-01 has no predecessor. */
  lemma PrevStep(d: Date)
    requires Valid(d) && DayNumber(d) > 1
    ensures Valid(Prev(d))
    ensures DayNumber(Prev(d)) == DayNumber(d) - 1
    ensures Next(Prev(d)) == d
  {
    if d.day == 1 && d.month > 1 {
      PrevAcrossMonth(d);
    } else if d.day == 1 && d.month == 1 {
      PrevAcrossYear(d);
    }
  }

  /** `PrevStep` on the first of a month other than January. */
  lemma PrevAcrossMonth(d: Date)
    requires Valid(d) && d.day == 1 && d.month > 1
    ensures Valid(Prev(d))
    ensures DayNumber(Prev(d)) == DayNumber(d) - 1
    ensures Next(Prev(d)) == d
  {
    MonthTable(d.year, d.month - 1);
  }

  /** `PrevStep` on New Year's Day. */
  lemma PrevAcrossYear(d: Date)
    requires Valid(d) && DayNumber(d) > 1 && d.day == 1 && d.month == 1
    ensures Valid(Prev(d))
    ensures DayNumber(Prev(d)) == DayNumber(d) - 1
    ensures Next(Prev(d)) == d
  {
    assert d.year > 1;
    assert DaysBeforeYear(d.year) == DaysBeforeYear(d.year - 1) + DaysInYear(d.year - 1);
    MonthTable(d.year - 1, 12);
  }

  // ---------------------------------------------------------------------------
  // Order

  /** Lexicographic order on valid dates is day-number order. */
  lemma {:induction false} BeforeMeansSmallerDayNumber(a: Date, b: Date)
    requires Valid(a) && Valid(b)
    ensures Before(a, b) <==> DayNumber(a) < DayNumber(b)
  {
    if a.year < b.year {
      DayNumberInYear(a);
      DayNumberInYear(b);
      DaysBeforeYearGrows(a.year, b.year);
    } else if b.year < a.year {
      DayNumberInYear(a);
      DayNumberInYear(b);
      DaysBeforeYearGrows(b.year, a.year);
    } else if a.month < b.month {
      MonthTable(a.year, a.month);
      assert DaysBeforeMonth(a.year, a.month + 1) <= DaysBeforeMonth(a.year, b.month);
    } else if b.month < a.month {
      MonthTable(a.year, b.month);
      assert DaysBeforeMonth(a.year, b.month + 1) <= DaysBeforeMonth(a.year, a.month);
    }
  }

  /** Distinct valid dates have distinct day numbers. */
  lemma DayNumberInjective(a: Date, b: Date)
    requires Valid(a) && Valid(b)
    ensures DayNumber(a) == DayNumber(b) <==> a == b
  {
    BeforeMeansSmallerDayNumber(a, b);
    BeforeMeansSmallerDayNumber(b, a);
  }

  // ---------------------------------------------------------------------------
  // Months

  /** The first day of the month before `d`'s month. */
  function FirstOfPrevMonth(d: Date): (r: Date)
    requires HasPreviousMonth(d)
    ensures Valid(r) && r.day == 1
  {
    if d.month == 1 then Date(d.year - 1, 12, 1) else Date(d.year, d.month - 1, 1)
  }

  /** Python computes the start of the previous month as
      `(d.replace(day=1) - timedelta(days=1)).replace(day=1)`; that is
      `FirstOfPrevMonth`, and the previous month fills exactly the days
      between it and the first of `d`'s month. */
  lemma FirstOfPrevMonthSteps(d: Date)
    requires HasPreviousMonth(d)
    ensures DayNumber(FirstOfMonth(d)) > 1
    ensures FirstOfMonth(Prev(FirstOfMonth(d))) == FirstOfPrevMonth(d)
    ensures DayNumber(FirstOfPrevMonth(d)) + DaysInMonth(FirstOfPrevMonth(d).year, FirstOfPrevMonth(d).month)
            == DayNumber(FirstOfMonth(d))
  {
    var first := FirstOfMonth(d);
    DaysBeforeYearNonNegative(d.year - 1);
    PrevStep(first);
  }
}

=== FILE: daily_worker_calendar.dfy ===
/**
 The server side of the calendar page in app/daily_worker_eligibility.py: the
 dates the calendar shows, their grouping into one grid per month, the blank
 cells before each month's first day, the bounds of the fourteen-day window
 handed to the browser, and the handler that turns a JSON message into the
 stored selection.
 */
module DailyWorkerCalendar {
  import opened Wrappers
  import opened CivilDate
  import opened DateRange
  import opened DateFormat
  import opened Sequences
  import DailyWorkerForm

  // ---------------------------------------------------------------------------
  // The calendar's dates

  /** The `while current_date <= last_day` loop, appending each day and
      stepping one day forward. */
  method CollectDays(firstDay: Date, lastDay: Date) returns (calDates: seq<Date>)
    requires Valid(firstDay)
    ensures calDates == DaysFrom(firstDay, lastDay)
  {
    calDates := [];
    var currentDate := firstDay;
    while DayNumber(currentDate) <= DayNumber(lastDay)
      invariant Valid(currentDate)
      invariant calDates + DaysFrom(currentDate, lastDay) == DaysFrom(firstDay, lastDay)
      decreases DayNumber(lastDay) - DayNumber(currentDate)
    {
      DaysFromStep(currentDate, lastDay);
      AppendThenConcat(calDates, currentDate, DaysFrom(Next(currentDate), lastDay));
      calDates := calDates + [currentDate];
      currentDate := Next(currentDate);
    }
    DaysFromStep(currentDate, lastDay);
    assert calDates + [] == calDates;
  }

  /** `cal_dates`: every day from the first of the previous month through the
      input date, the same period the form-based page checks. */
  method CalendarDates(inputDate: Date) returns (calDates: seq<Date>)
    requires HasPreviousMonth(inputDate)
    ensures |calDates| > 0 && calDates[0] == FirstOfPrevMonth(inputDate) && calDates[|calDates| - 1] == inputDate
    ensures forall i :: 0 <= i < |calDates| ==>
              Valid(calDates[i]) && DayNumber(calDates[i]) == DayNumber(calDates[0]) + i
    ensures calDates == DailyWorkerForm.GetDateRange(inputDate).0
  {
    FirstOfPrevMonthSteps(inputDate);
    var firstDayPrevMonth := FirstOfMonth(Prev(FirstOfMonth(inputDate)));
    calDates := CollectDays(firstDayPrevMonth, inputDate);
    DaysFromEnds(firstDayPrevMonth, inputDate);
    DailyWorkerForm.GetDateRangeIsRun(inputDate);
  }

  lemma AppendThenConcat<T>(prefix: seq<T>, x: T, rest: seq<T>)
    ensures (prefix + [x]) + rest == prefix + ([x] + rest)
  {
  }

  // ---------------------------------------------------------------------------
  // One grid per month

  /** The `"%Y-%m"` key of a date, kept as the pair it spells; a valid
      date's key names a month that exists. */
  function MonthKey(d: Date): (k: (int, int))
    ensures Valid(d) ==> Valid(Date(k.0, k.1, 1))
  {
    (d.year, d.month)
  }

  /** Two dates share a key exactly when they share the first of their month. */
  lemma MonthKeySameMonth(a: Date, b: Date)
    ensures MonthKey(a) == MonthKey(b) <==> FirstOfMonth(a) == FirstOfMonth(b)
  {
  }

  /** One entry of `calendar_groups`: a year-month and its dates. */
  datatype MonthGroup = MonthGroup(key: (int, int), dates: seq<Date>)

  /** The dates of `dates` whose key is `key`, in their original order. */
  function DatesOfMonth(dates: seq<Date>, key: (int, int)): seq<Date> {
    if |dates| == 0 then []
    else
      var last := dates[|dates| - 1];
      DatesOfMonth(dates[..|dates| - 1], key) + (if MonthKey(last) == key then [last] else [])
  }

  /** The index of the group with key `key`, if any. */
  function FindGroup(groups: seq<MonthGroup>, key: (int, int)): (r: Option<nat>)
    ensures r.Some? ==> r.value < |groups| && groups[r.value].key == key
    ensures r.None? ==> forall i :: 0 <= i < |groups| ==> groups[i].key != key
  {
    if |groups| == 0 then None
    else if groups[|groups| - 1].key == key then Some(|groups| - 1)
    else FindGroup(groups[..|groups| - 1], key)
  }

  /** One iteration of the grouping loop: append `d` to its month's group,
      opening a new group at the end when the month is new. */
  function AddToGroups(groups: seq<MonthGroup>, d: Date): (r: seq<MonthGroup>)
    ensures |r| == |groups| <==> FindGroup(groups, MonthKey(d)).Some?
    ensures |r| == |groups| || |r| == |groups| + 1
  {
    match FindGroup(groups, MonthKey(d))
    case Some(i) => groups[i := MonthGroup(groups[i].key, groups[i].dates + [d])]
    case None => groups + [MonthGroup(MonthKey(d), [d])]
  }

  /** The year-months of the groups, in order. */
  function Keys(groups: seq<MonthGroup>): seq<(int, int)> {
    seq(|groups|, i requires 0 <= i < |groups| => groups[i].key)
  }

  /** A dict has no repeated key. */
  predicate DistinctKeys(groups: seq<MonthGroup>) {
    Distinct(Keys(groups))
  }

  /** What the grouping loop keeps true: one group per month seen so far,
      each holding that month's dates in order. */
  ghost predicate GroupsOf(groups: seq<MonthGroup>, dates: seq<Date>) {
    && DistinctKeys(groups)
    && (forall i :: 0 <= i < |groups| ==>
          groups[i].dates == DatesOfMonth(dates, groups[i].key) && |groups[i].dates| > 0)
    && (forall d :: d in dates ==> exists i :: 0 <= i < |groups| && groups[i].key == MonthKey(d))
  }

  /** A month none of whose dates occur has no dates to group. */
  lemma {:induction false} DatesOfAbsentMonth(dates: seq<Date>, key: (int, int))
    requires forall d :: d in dates ==> MonthKey(d) != key
    ensures DatesOfMonth(dates, key) == []
  {
    if |dates| > 0 {
      DatesOfAbsentMonth(dates[..|dates| - 1], key);
    }
  }

  /** Distinct keys, index by index. */
  lemma DistinctKeysPairwise(groups: seq<MonthGroup>)
    requires DistinctKeys(groups)
    ensures forall i, j :: 0 <= i < |groups| && 0 <= j < |groups| && i != j ==> groups[i].key != groups[j].key
  {
    forall i, j | 0 <= i < |groups| && 0 <= j < |groups| && i != j ensures groups[i].key != groups[j].key {
      assert Keys(groups)[i] == groups[i].key && Keys(groups)[j] == groups[j].key;
    }
  }

  /** One iteration of the grouping loop keeps the keys distinct. */
  lemma AddToGroupsKeys(groups: seq<MonthGroup>, d: Date)
    requires DistinctKeys(groups)
    ensures DistinctKeys(AddToGroups(groups, d))
  {
    var r := AddToGroups(groups, d);
    var keys := Keys(groups);
    match FindGroup(groups, MonthKey(d))
    case Some(i) =>
      assert Keys(r) == keys;
    case None =>
      assert Keys(r) == keys + [MonthKey(d)];
      forall i, j | 0 <= i < j < |Keys(r)| ensures Keys(r)[i] != Keys(r)[j] {
        if j < |keys| {
          assert Keys(r)[i] == keys[i] && Keys(r)[j] == keys[j];
        } else {
          assert Keys(r)[i] == groups[i].key;
        }
      }
  }

  /** One iteration of the grouping loop keeps `GroupsOf`. */
  lemma AddToGroupsStep(groups: seq<MonthGroup>, dates: seq<Date>, d: Date)
    requires GroupsOf(groups, dates)
    ensures GroupsOf(AddToGroups(groups, d), dates + [d])
  {
    var all := dates + [d];
    assert all[..|all| - 1] == dates;
    AddToGroupsKeys(groups, d);
    DistinctKeysPairwise(groups);
    var r := AddToGroups(groups, d);
    forall i | 0 <= i < |r|
      ensures r[i].dates == DatesOfMonth(all, r[i].key) && |r[i].dates| > 0
    {
      if i == |groups| {
        forall e | e in dates ensures MonthKey(e) != MonthKey(d) {
          var j :| 0 <= j < |groups| && groups[j].key == MonthKey(e);
        }
        DatesOfAbsentMonth(dates, MonthKey(d));
      }
    }
    forall e | e in all
      ensures exists i :: 0 <= i < |r| && r[i].key == MonthKey(e)
    {
      if e in dates {
        var j :| 0 <= j < |groups| && groups[j].key == MonthKey(e);
        assert r[j].key == MonthKey(e);
      } else {
        var j := match FindGroup(groups, MonthKey(d)) case Some(j) => j case None => |groups|;
        assert r[j].key == MonthKey(e);
      }
    }
  }

  /** `calendar_groups`, an insertion-ordered dict from year-month to dates:
      the grouping loop run over `dates`. */
  function GroupByMonth(dates: seq<Date>): (r: seq<MonthGroup>)
    ensures |r| <= |dates|
    ensures |r| == 0 <==> |dates| == 0
  {
    if |dates| == 0 then []
    else AddToGroups(GroupByMonth(dates[..|dates| - 1]), dates[|dates| - 1])
  }

  /** The groups have distinct months, every date's month has a group, and
      each group holds exactly its month's dates in their original order. */
  lemma {:induction false} GroupByMonthGroupsDates(dates: seq<Date>)
    ensures var groups := GroupByMonth(dates);
      && DistinctKeys(groups)
      && (forall i :: 0 <= i < |groups| ==>
            groups[i].dates == DatesOfMonth(dates, groups[i].key) && |groups[i].dates| > 0)
      && (forall d :: d in dates ==> exists i :: 0 <= i < |groups| && groups[i].key == MonthKey(d))
  {
    if |dates| > 0 {
      var prefix := dates[..|dates| - 1];
      var d := dates[|dates| - 1];
      assert prefix + [d] == dates;
      GroupByMonthGroupsDates(prefix);
      AddToGroupsStep(GroupByMonth(prefix), prefix, d);
    }
  }

  /** Grouping one more date is one more iteration of the loop. */
  lemma GroupByMonthSnoc(prefix: seq<Date>, d: Date)
    ensures GroupByMonth(prefix + [d]) == AddToGroups(GroupByMonth(prefix), d)
  {
    assert (prefix + [d])[..|prefix|] == prefix;
  }

  /** Grouping a run of dates of one month gives that single group. */
  lemma {:induction false} GroupOneRun(run: seq<Date>, k: (int, int))
    requires |run| > 0
    requires forall i :: 0 <= i < |run| ==> MonthKey(run[i]) == k
    ensures GroupByMonth(run) == [MonthGroup(k, run)]
  {
    var prefix := run[..|run| - 1];
    var d := run[|run| - 1];
    assert prefix + [d] == run;
    GroupByMonthSnoc(prefix, d);
    if |prefix| == 0 {
    } else {
      GroupOneRun(prefix, k);
      assert FindGroup([MonthGroup(k, prefix)], k) == Some(0);
      assert prefix + [d] == run;
    }
  }

  /** A date of the second month joins the second of two groups. */
  lemma JoinSecondGroup(g1: MonthGroup, k2: (int, int), dates: seq<Date>, d: Date)
    requires g1.key != k2 && MonthKey(d) == k2
    ensures AddToGroups([g1, MonthGroup(k2, dates)], d) == [g1, MonthGroup(k2, dates + [d])]
  {
    assert FindGroup([g1, MonthGroup(k2, dates)], k2) == Some(1);
  }

  /** A date of a new month opens a second group. */
  lemma OpenSecondGroup(g1: MonthGroup, d: Date)
    requires g1.key != MonthKey(d)
    ensures AddToGroups([g1], d) == [g1, MonthGroup(MonthKey(d), [d])]
  {
    assert FindGroup([g1], MonthKey(d)) == None;
  }

  /** Grouping a run of one month followed by a run of another gives exactly
      those two groups, in that order. */
  lemma {:induction false} GroupTwoRuns(first: seq<Date>, second: seq<Date>, k1: (int, int), k2: (int, int))
    requires |first| > 0 && |second| > 0 && k1 != k2
    requires forall i :: 0 <= i < |first| ==> MonthKey(first[i]) == k1
    requires forall i :: 0 <= i < |second| ==> MonthKey(second[i]) == k2
    ensures GroupByMonth(first + second) == [MonthGroup(k1, first), MonthGroup(k2, second)]
  {
    var shorter := second[..|second| - 1];
    var d := second[|second| - 1];
    assert MonthKey(d) == k2;
    GroupAppendSnoc(first, second);
    if |shorter| == 0 {
      GroupOneRun(first, k1);
      OpenSecondGroup(MonthGroup(k1, first), d);
      assert [d] == second;
    } else {
      assert forall i :: 0 <= i < |shorter| ==> MonthKey(shorter[i]) == k2;
      GroupTwoRuns(first, shorter, k1, k2);
      JoinSecondGroup(MonthGroup(k1, first), k2, shorter, d);
    }
  }

  /** Grouping `first + second` is grouping `first` and all of `second` but
      its last date, then that date. */
  lemma GroupAppendSnoc(first: seq<Date>, second: seq<Date>)
    requires |second| > 0
    ensures var shorter := second[..|second| - 1];
      && shorter + [second[|second| - 1]] == second
      && GroupByMonth(first + second) == AddToGroups(GroupByMonth(first + shorter), second[|second| - 1])
      && (|shorter| == 0 ==> first + shorter == first)
  {
    var shorter := second[..|second| - 1];
    var d := second[|second| - 1];
    assert shorter + [d] == second;
    assert (first + shorter) + [d] == first + second;
    GroupByMonthSnoc(first + shorter, d);
  }

  /** The day number of the first of `d`'s month. */
  lemma SameMonthDayNumber(d: Date)
    requires Valid(d)
    ensures DayNumber(d) == DayNumber(FirstOfMonth(d)) + d.day - 1
  {
  }

  /** The calendar's dates form two groups, the previous month (complete) and
      the input date's month up to the input date; concatenating the groups
      gives back the calendar. */
  lemma CalendarGroups(inputDate: Date)
    requires HasPreviousMonth(inputDate)
    ensures var calDates := DailyWorkerForm.GetDateRange(inputDate).0;
      var prev := FirstOfPrevMonth(inputDate);
      var n := DaysInMonth(prev.year, prev.month);
      && n < |calDates|
      && GroupByMonth(calDates) == [MonthGroup(MonthKey(prev), calDates[..n]),
                                    MonthGroup(MonthKey(inputDate), calDates[n..])]
      && calDates[..n] + calDates[n..] == calDates
  {
    var prev := FirstOfPrevMonth(inputDate);
    var calDates := DailyWorkerForm.GetDateRange(inputDate).0;
    var n := DaysInMonth(prev.year, prev.month);
    var first := FirstOfMonth(inputDate);
    CalendarSpansTwoMonths(inputDate);
    assert MonthKey(first) == MonthKey(inputDate) != MonthKey(prev);
    GroupTwoMonthRuns(calDates, prev, first, n);
  }

  /** A run of days from the first of one month, followed by a run from the
      first of another, groups into those two runs. */
  lemma GroupTwoMonthRuns(calDates: seq<Date>, prev: Date, first: Date, n: nat)
    requires Valid(prev) && prev.day == 1 && Valid(first) && first.day == 1
    requires MonthKey(prev) != MonthKey(first)
    requires n == DaysInMonth(prev.year, prev.month)
    requires 0 < n < |calDates| && |calDates| - n <= DaysInMonth(first.year, first.month)
    requires forall i :: 0 <= i < n ==> Valid(calDates[..n][i]) && DayNumber(calDates[..n][i]) == DayNumber(prev) + i
    requires forall i :: 0 <= i < |calDates| - n ==>
      Valid(calDates[n..][i]) && DayNumber(calDates[n..][i]) == DayNumber(first) + i
    ensures GroupByMonth(calDates) == [MonthGroup(MonthKey(prev), calDates[..n]),
                                       MonthGroup(MonthKey(first), calDates[n..])]
  {
    var before := calDates[..n];
    var after := calDates[n..];
    RunInOneMonth(before, prev);
    RunInOneMonth(after, first);
    GroupTwoRuns(before, after, MonthKey(prev), MonthKey(first));
    assert before + after == calDates;
  }

  /** The calendar is the whole previous month followed by the input date's
      month up to the input date, each a run of consecutive days from the
      first of its month. */
  lemma CalendarSpansTwoMonths(inputDate: Date)
    requires HasPreviousMonth(inputDate)
    ensures var calDates := DailyWorkerForm.GetDateRange(inputDate).0;
      var prev := FirstOfPrevMonth(inputDate);
      var n := DaysInMonth(prev.year, prev.month);
      var first := FirstOfMonth(inputDate);
      && Valid(prev) && prev.day == 1 && Valid(first) && first.day == 1
      && 0 < n < |calDates| && |calDates| - n <= DaysInMonth(first.year, first.month)
      && (forall i :: 0 <= i < n ==> Valid(calDates[..n][i]) && DayNumber(calDates[..n][i]) == DayNumber(prev) + i)
      && (forall i :: 0 <= i < |calDates| - n ==>
            Valid(calDates[n..][i]) && DayNumber(calDates[n..][i]) == DayNumber(first) + i)
  {
    var prev := FirstOfPrevMonth(inputDate);
    var calDates := DailyWorkerForm.GetDateRange(inputDate).0;
    var n := DaysInMonth(prev.year, prev.month);
    var first := FirstOfMonth(inputDate);
    assert DayNumber(prev) + n == DayNumber(first) && |calDates| == n + inputDate.day by {
      DailyWorkerForm.GetDateRangeIsRun(inputDate);
      FirstOfPrevMonthSteps(inputDate);
      SameMonthDayNumber(inputDate);
    }
    MonthTable(prev.year, prev.month);
    assert forall i :: 0 <= i < |calDates| ==> Valid(calDates[i]) && DayNumber(calDates[i]) == DayNumber(prev) + i;
    assert forall i :: 0 <= i < |calDates| - n ==> calDates[n..][i] == calDates[n + i];
  }

  /** A run of consecutive days that starts on the first of a month and is
      no longer than that month stays inside it. */
  lemma RunInOneMonth(run: seq<Date>, first: Date)
    requires Valid(first) && first.day == 1
    requires |run| > 0 && |run| <= DaysInMonth(first.year, first.month)
    requires forall i :: 0 <= i < |run| ==> Valid(run[i]) && DayNumber(run[i]) == DayNumber(first) + i
    ensures forall i :: 0 <= i < |run| ==> MonthKey(run[i]) == MonthKey(first)
  {
    forall i | 0 <= i < |run| ensures MonthKey(run[i]) == MonthKey(first) {
      DayNumberInjective(Date(first.year, first.month, i + 1), run[i]);
    }
  }

  // ---------------------------------------------------------------------------
  // Blank cells before the first day

  /** `(first_day_of_month.weekday() + 1) % 7`: the grid's columns run Sunday
      to Saturday, so this is the first day's column. */
  function StartDayOffset(firstDayOfMonth: Date): (offset: int)
    ensures 0 <= offset <= 6
    ensures offset == 0 <==> Weekday(firstDayOfMonth) == 6
    ensures offset == DayNumber(firstDayOfMonth) % 7
  {
    (Weekday(firstDayOfMonth) + 1) % 7
  }

  /** After the blank cells, the day numbered `d.day` of a month lands in the
      column of its own weekday (Sunday first). */
  lemma DayLandsInItsWeekdayColumn(d: Date)
    requires Valid(d)
    ensures (StartDayOffset(FirstOfMonth(d)) + d.day - 1) % 7 == (Weekday(d) + 1) % 7
  {
    SameMonthDayNumber(d);
    ColumnArithmetic(DayNumber(FirstOfMonth(d)), d.day, DayNumber(d));
  }

  /** The column sum on plain numbers: the first day's ordinal `f`, the day
      of the month and the day's own ordinal `n`. */
  lemma ColumnArithmetic(f: int, day: int, n: int)
    requires n == f + day - 1
    ensures ((f + 6) % 7 + 1) % 7 == f % 7
    ensures (f % 7 + day - 1) % 7 == ((n + 6) % 7 + 1) % 7
  {
    ModSevenShift(f + 6, 1);
    ModSevenShift(n + 6, 1);
    ModSevenShift(f, day - 1);
    assert (f + 7) % 7 == f % 7;
    assert (n + 7) % 7 == n % 7;
  }

  /** Reducing one summand modulo seven first does not change the sum's
      remainder. */
  lemma ModSevenShift(x: int, y: int)
    ensures (x % 7 + y) % 7 == (x + y) % 7
  {
    var q := x / 7;
    assert x + y == (x % 7 + y) + 7 * q;
  }

  // ---------------------------------------------------------------------------
  // The fourteen-day window handed to the browser

  /** `FOURTEEN_DAYS_START` and `FOURTEEN_DAYS_END`: the text of the dates
      fourteen days and one day before the input date. */
  function FourteenDayBounds(inputDate: Date): (r: (string, string))
    requires HasPreviousMonth(inputDate) && inputDate.year <= 9999
    ensures exists lo: Date, hi: Date ::
      && Formattable(lo) && Formattable(hi)
      && DayNumber(lo) == DayNumber(inputDate) - 14 && DayNumber(hi) == DayNumber(inputDate) - 1
      && r == (Format(lo), Format(hi))
  {
    DailyWorkerForm.LateEnoughForWindow(inputDate);
    var lo := MinusDays(inputDate, DailyWorkerForm.WindowDays);
    var hi := MinusDays(inputDate, 1);
    YearNotAfter(lo, inputDate);
    YearNotAfter(hi, inputDate);
    (Format(lo), Format(hi))
  }

  /** A date no later than another has no later year. */
  lemma YearNotAfter(d: Date, e: Date)
    requires Valid(d) && Valid(e) && DayNumber(d) <= DayNumber(e)
    ensures d.year <= e.year
  {
    BeforeMeansSmallerDayNumber(e, d);
  }

  // ---------------------------------------------------------------------------
  // The JSON message handler

  /** A value `json.loads` can return. Numbers are integers here. */
  datatype Json =
    | JNull
    | JBool(b: bool)
    | JInt(n: int)
    | JString(s: string)
    | JArray(items: seq<Json>)
    | JObject(fields: seq<(string, Json)>)

  /** Python can put the value in a `set`: lists and dicts are unhashable. */
  predicate Hashable(v: Json) {
    !v.JArray? && !v.JObject?
  }

  /** What the handler can raise. `set(data)` raises `TypeError` on an
      unhashable element; only `JSONDecodeError` is caught. */
  datatype HandlerError = UnhashableElement

  /** The items with later repeats dropped: the elements of `set(data)`, as
      `list(...)` lists them (Python leaves their order unspecified). */
  function Dedup(items: seq<Json>): (r: seq<Json>)
    ensures Distinct(r)
    ensures forall v :: v in r <==> v in items
    ensures |r| <= |items|
  {
    if |items| == 0 then []
    else
      var rest := Dedup(items[..|items| - 1]);
      var last := items[|items| - 1];
      assert forall v :: v in items <==> v in items[..|items| - 1] || v == last;
      if last in rest then rest else rest + [last]
  }

  /** `handle_js_message`. `message` is the text field's value, `decoded` the
      result of `json.loads(message)` (`None` when it raises
      `JSONDecodeError`), `previous` the stored selection. */
  function HandleJsMessage(message: string, decoded: Option<Json>, previous: seq<Json>): (r: Result<seq<Json>, HandlerError>)
    ensures message == [] ==> r == Ok(previous)
    ensures message != [] && (decoded.None? || !decoded.value.JArray?) ==> r == Ok([])
    ensures message != [] && decoded.Some? && decoded.value.JArray? ==>
      (r.Err? <==> exists v :: v in decoded.value.items && !Hashable(v))
    ensures message != [] && r.Ok? && decoded.Some? && decoded.value.JArray? ==>
      Distinct(r.value) && forall v :: v in r.value <==> v in decoded.value.items
  {
    if message == [] then Ok(previous)
    else match decoded
      case None => Ok([])
      case Some(data) =>
        if data.JArray? then
          if forall i :: 0 <= i < |data.items| ==> Hashable(data.items[i]) then Ok(Dedup(data.items))
          else Err(UnhashableElement)
        else Ok([])
  }

  /** Storing a selection and handling it again changes nothing. */
  lemma DedupIdempotent(items: seq<Json>)
    ensures Dedup(Dedup(items)) == Dedup(items)
  {
    DedupOfDistinct(Dedup(items));
  }

  /** A list without repeats is kept as it is. */
  lemma {:induction false} DedupOfDistinct(items: seq<Json>)
    requires Distinct(items)
    ensures Dedup(items) == items
  {
    if |items| > 0 {
      var prefix := items[..|items| - 1];
      assert Distinct(prefix);
      DedupOfDistinct(prefix);
      assert items[|items| - 1] !in prefix;
      assert prefix + [items[|items| - 1]] == items;
    }
  }
}

=== FILE: daily_worker_form.dfy ===
/**
 The form-based daily-worker check of daily_worker_eligibility1.py.

 The applicant picks an application date; the look-back period runs from the
 first day of the previous month through that date. Among the days of that
 period they pick the days they worked. Condition 1 asks that fewer than a
 third of the period's days were worked; condition 2 asks that none of the
 fourteen days before the application date was worked. When condition 2
 fails, the page suggests the earliest date from which it would hold.
 */
module DailyWorkerForm {
  import opened Wrappers
  import opened CivilDate
  import opened DateRange
  import opened Sequences
  import EligibilityLogic

  /** Days in the window before the application date that must be free of
      work for condition 2. */
  const WindowDays: nat := 14

  /** Days after the latest worked day at which the suggestion lands,
      `timedelta(days=15)`. */
  const SuggestionGap: nat := 15

  /** `get_date_range(apply_date)`: the look-back period and its first day. */
  function GetDateRange(applyDate: Date): (r: (seq<Date>, Date))
    requires HasPreviousMonth(applyDate)
    ensures IsLookBack(applyDate, r.0, r.1)
  {
    var start := FirstOfPrevMonth(applyDate);
    LookBackSpan(applyDate, start);
    LookBackRun(applyDate, start);
    (DaysFrom(start, applyDate), start)
  }

  /** `days` is the look-back period of `applyDate` and `start` its first
      day: the first of the previous month, then every day in turn through
      the application date, between 29 and 62 days in all. */
  predicate IsLookBack(applyDate: Date, days: seq<Date>, start: Date) {
    && Valid(start) && start.day == 1
    && (start.year, start.month) == (if applyDate.month == 1 then (applyDate.year - 1, 12)
                                     else (applyDate.year, applyDate.month - 1))
    && |days| > 0 && days[0] == start && days[|days| - 1] == applyDate
    && (forall i :: 0 <= i < |days| ==> Valid(days[i]) && DayNumber(days[i]) == DayNumber(start) + i)
    && 29 <= |days| <= 62
  }

  /** The run of days from the first of the previous month is the look-back
      period. */
  lemma LookBackRun(applyDate: Date, start: Date)
    requires HasPreviousMonth(applyDate) && Valid(applyDate) && Valid(start) && start.day == 1
    requires (start.year, start.month) == (if applyDate.month == 1 then (applyDate.year - 1, 12)
                                           else (applyDate.year, applyDate.month - 1))
    requires 29 <= DayNumber(applyDate) - DayNumber(start) + 1 <= 62
    ensures IsLookBack(applyDate, DaysFrom(start, applyDate), start)
  {
    DaysFromEnds(start, applyDate);
  }

  /** The look-back period starts on the first of the previous month and
      spans that whole month plus the application date's month up to it. */
  lemma LookBackSpan(applyDate: Date, start: Date)
    requires HasPreviousMonth(applyDate) && start == FirstOfPrevMonth(applyDate)
    ensures Valid(start) && start.day == 1
    ensures (start.year, start.month) == (if applyDate.month == 1 then (applyDate.year - 1, 12)
                                          else (applyDate.year, applyDate.month - 1))
    ensures 29 <= DayNumber(applyDate) - DayNumber(start) + 1 <= 62
  {
    FirstOfPrevMonthSteps(applyDate);
    MonthTable(start.year, start.month);
  }

  /** The look-back period is the run of days from the first of the previous
      month through the application date. */
  lemma GetDateRangeIsRun(applyDate: Date)
    requires HasPreviousMonth(applyDate)
    ensures GetDateRange(applyDate).0 == DaysFrom(FirstOfPrevMonth(applyDate), applyDate)
    ensures GetDateRange(applyDate).1 == FirstOfPrevMonth(applyDate)
  {
  }

  /** The application date is late enough for the fourteen days before it
      to be representable. */
  lemma LateEnoughForWindow(applyDate: Date)
    requires HasPreviousMonth(applyDate)
    ensures DayNumber(applyDate) > 28
  {
    FirstOfPrevMonthSteps(applyDate);
    DayNumberPositive(FirstOfPrevMonth(applyDate));
    MonthTable(FirstOfPrevMonth(applyDate).year, FirstOfPrevMonth(applyDate).month);
  }

  /** `pd.date_range(fourteen_start, fourteen_end)` with
      `fourteen_end = apply_date - 1 day` and `fourteen_start = fourteen_end - 13 days`. */
  function FourteenDayWindow(applyDate: Date): (w: seq<Date>)
    requires Valid(applyDate) && DayNumber(applyDate) > 14
    ensures |w| == 14
    ensures forall i :: 0 <= i < 14 ==> Valid(w[i]) && DayNumber(w[i]) == DayNumber(applyDate) - 14 + i
    ensures applyDate !in w
  {
    var fourteenEnd := MinusDays(applyDate, 1);
    var fourteenStart := MinusDays(fourteenEnd, WindowDays - 1);
    DaysFrom(fourteenStart, fourteenEnd)
  }

  /** A day number falls in the fourteen days before the application date. */
  predicate InWindowBefore(applyDate: Date, d: Date) {
    DayNumber(applyDate) - 14 <= DayNumber(d) <= DayNumber(applyDate) - 1
  }

  /** `set(...)` of the picked dates. */
  function SelectedSet(picks: seq<Date>): (r: set<Date>)
    ensures forall d :: d in r <==> d in picks
  {
    set d | d in picks
  }

  /** Counting the set of picks never counts a date twice: the count is the
      number of picks exactly when no date was picked twice. */
  lemma {:induction false} SelectedCount(picks: seq<Date>)
    ensures |SelectedSet(picks)| <= |picks|
    ensures |SelectedSet(picks)| == |picks| <==> Distinct(picks)
  {
    if |picks| > 0 {
      var rest := picks[1..];
      SelectedCount(rest);
      assert SelectedSet(picks) == {picks[0]} + SelectedSet(rest);
      if picks[0] in rest {
        var k :| 0 <= k < |rest| && rest[k] == picks[0];
        assert picks[0] == picks[k + 1];
        assert SelectedSet(picks) == SelectedSet(rest);
      } else {
        assert Distinct(picks) <==> Distinct(rest) by {
          if Distinct(rest) {
            forall i, j | 0 <= i < j < |picks| ensures picks[i] != picks[j] {
              if i > 0 {
                assert picks[i] == rest[i - 1] && picks[j] == rest[j - 1];
              } else {
                assert picks[j] in rest;
              }
            }
          }
          if Distinct(picks) {
            forall i, j | 0 <= i < j < |rest| ensures rest[i] != rest[j] {
              assert rest[i] == picks[i + 1] && rest[j] == picks[j + 1];
            }
          }
        }
      }
    } else {
      assert SelectedSet(picks) == {};
    }
  }

  /** `max(d for d in selected if DayNumber(d) < limit)`, or `None` when there
      is no such pick. */
  function LatestBelow(picks: seq<Date>, limit: int): (r: Option<Date>)
    ensures r.None? <==> forall d :: d in picks ==> limit <= DayNumber(d)
    ensures r.Some? ==> r.value in picks && DayNumber(r.value) < limit
    ensures r.Some? ==> forall d :: d in picks && DayNumber(d) < limit ==> DayNumber(d) <= DayNumber(r.value)
  {
    if |picks| == 0 then None
    else
      var rest := LatestBelow(picks[1..], limit);
      var d := picks[0];
      assert forall e :: e in picks ==> e == d || e in picks[1..];
      if limit <= DayNumber(d) then rest
      else if rest.Some? && DayNumber(d) <= DayNumber(rest.value) then rest
      else Some(d)
  }

  /** `last + timedelta(days=15)` for the latest pick before day number
      `limit`, or nothing when there is no such pick. */
  function SuggestionBelow(picks: seq<Date>, limit: int): (r: Option<Date>)
    requires forall i :: 0 <= i < |picks| ==> Valid(picks[i])
    ensures r.Some? <==> exists d :: d in picks && DayNumber(d) < limit
    ensures r.Some? ==> Valid(r.value)
    ensures r.Some? ==> forall d :: d in picks && DayNumber(d) < limit ==> !InWindowBefore(r.value, d)
    ensures r.Some? ==> LatestBelow(picks, limit).Some?
                        && DayNumber(r.value) == DayNumber(LatestBelow(picks, limit).value) + SuggestionGap
  {
    match LatestBelow(picks, limit)
    case None => None
    case Some(last) => Some(PlusDays(last, SuggestionGap))
  }

  /** The suggested re-application date as daily_worker_eligibility1.py
      computes it: fifteen days after the latest pick strictly before the
      application date. */
  function SuggestedAsWritten(picks: seq<Date>, applyDate: Date): (r: Option<Date>)
    requires forall i :: 0 <= i < |picks| ==> Valid(picks[i])
    ensures r.Some? <==> exists d :: d in picks && DayNumber(d) < DayNumber(applyDate)
    ensures r.Some? ==> Valid(r.value)
    ensures r.Some? ==> forall d :: d in picks && DayNumber(d) < DayNumber(applyDate) ==> !InWindowBefore(r.value, d)
    ensures r.Some? ==> LatestBelow(picks, DayNumber(applyDate)).Some?
                        && DayNumber(r.value) == DayNumber(LatestBelow(picks, DayNumber(applyDate)).value) + SuggestionGap
  {
    SuggestionBelow(picks, DayNumber(applyDate))
  }

  /** The suggested date with the application day itself counted as a worked
      day, which the look-back period lets the applicant pick. */
  function Suggested(picks: seq<Date>, applyDate: Date): (r: Option<Date>)
    requires forall i :: 0 <= i < |picks| ==> Valid(picks[i])
    ensures r.Some? <==> exists d :: d in picks && DayNumber(d) <= DayNumber(applyDate)
    ensures r.Some? ==> Valid(r.value)
    ensures r.Some? ==> forall d :: d in picks && DayNumber(d) <= DayNumber(applyDate) ==> !InWindowBefore(r.value, d)
    ensures r.Some? ==> LatestBelow(picks, DayNumber(applyDate) + 1).Some?
                        && DayNumber(r.value) == DayNumber(LatestBelow(picks, DayNumber(applyDate) + 1).value) + SuggestionGap
  {
    SuggestionBelow(picks, DayNumber(applyDate) + 1)
  }

  /** No earlier date would do: every date after the latest worked day and
      before the suggestion still has that worked day in its window. */
  lemma SuggestedIsEarliest(picks: seq<Date>, applyDate: Date, other: Date)
    requires forall i :: 0 <= i < |picks| ==> Valid(picks[i])
    requires Suggested(picks, applyDate).Some?
    requires var last := LatestBelow(picks, DayNumber(applyDate) + 1).value;
      DayNumber(last) < DayNumber(other) < DayNumber(Suggested(picks, applyDate).value)
    ensures exists d :: d in picks && DayNumber(d) <= DayNumber(applyDate) && InWindowBefore(other, d)
  {
    var last := LatestBelow(picks, DayNumber(applyDate) + 1).value;
    assert InWindowBefore(other, last);
  }

  /** The same holds of the suggestion as written, for the picks strictly
      before the application date that it looks at. */
  lemma SuggestedAsWrittenIsEarliest(picks: seq<Date>, applyDate: Date, other: Date)
    requires forall i :: 0 <= i < |picks| ==> Valid(picks[i])
    requires SuggestedAsWritten(picks, applyDate).Some?
    requires var last := LatestBelow(picks, DayNumber(applyDate)).value;
      DayNumber(last) < DayNumber(other) < DayNumber(SuggestedAsWritten(picks, applyDate).value)
    ensures exists d :: d in picks && DayNumber(d) < DayNumber(applyDate) && InWindowBefore(other, d)
  {
    var last := LatestBelow(picks, DayNumber(applyDate)).value;
    assert InWindowBefore(other, last);
  }

  /** Moving the limit past a day number no pick has changes nothing. */
  lemma {:induction false} LatestBelowSkips(picks: seq<Date>, limit: int)
    requires forall i :: 0 <= i < |picks| ==> DayNumber(picks[i]) != limit
    ensures LatestBelow(picks, limit + 1) == LatestBelow(picks, limit)
  {
    if |picks| > 0 {
      LatestBelowSkips(picks[1..], limit);
    }
  }

  /** A date that was not picked shares its day number with no pick. */
  lemma NoPickOnDay(picks: seq<Date>, day: Date)
    requires Valid(day)
    requires forall i :: 0 <= i < |picks| ==> Valid(picks[i])
    requires day !in picks
    ensures forall i :: 0 <= i < |picks| ==> DayNumber(picks[i]) != DayNumber(day)
  {
    forall i | 0 <= i < |picks| ensures DayNumber(picks[i]) != DayNumber(day) {
      DayNumberInjective(picks[i], day);
    }
  }

  /** The two suggestions agree unless the application day itself was picked. */
  lemma {:induction false} SuggestedAgreesUnlessApplyDayPicked(picks: seq<Date>, applyDate: Date)
    requires Valid(applyDate)
    requires forall i :: 0 <= i < |picks| ==> Valid(picks[i])
    requires applyDate !in picks
    ensures Suggested(picks, applyDate) == SuggestedAsWritten(picks, applyDate)
  {
    var limit := DayNumber(applyDate);
    NoPickOnDay(picks, applyDate);
    LatestBelowSkips(picks, limit);
    var corrected := Suggested(picks, applyDate);
    var asWritten := SuggestedAsWritten(picks, applyDate);
    if corrected.Some? {
      var last := LatestBelow(picks, limit + 1).value;
      assert DayNumber(last) < limit;
      assert asWritten.Some?;
      DayNumberInjective(corrected.value, asWritten.value);
    }
  }

  /** As written, a pick on the application date is ignored: whenever the
      application day was worked and condition 2 fails, the suggested date
      still has the application day inside its own fourteen-day window. */
  lemma SuggestedAsWrittenKeepsApplyDayInWindow(picks: seq<Date>, applyDate: Date)
    requires Valid(applyDate)
    requires forall i :: 0 <= i < |picks| ==> Valid(picks[i])
    requires applyDate in picks
    requires exists d :: d in picks && InWindowBefore(applyDate, d)
    ensures SuggestedAsWritten(picks, applyDate).Some?
    ensures InWindowBefore(SuggestedAsWritten(picks, applyDate).value, applyDate)
  {
    var w :| w in picks && InWindowBefore(applyDate, w);
    var last := LatestBelow(picks, DayNumber(applyDate)).value;
    assert DayNumber(w) <= DayNumber(last);
  }

  /** Working on the day before the application date and on the application
      date itself: as written, the suggestion still has the application day
      in its window, while the corrected suggestion does not. */
  lemma AsWrittenMissesWorkedApplyDay(worked: Date, applyDate: Date)
    requires Valid(worked) && Valid(applyDate)
    requires DayNumber(applyDate) == DayNumber(worked) + 1
    ensures var picks := [worked, applyDate];
      var s := SuggestedAsWritten(picks, applyDate);
      && s == Some(PlusDays(worked, SuggestionGap))
      && InWindowBefore(s.value, applyDate)
      && Suggested(picks, applyDate) == Some(PlusDays(applyDate, SuggestionGap))
      && !InWindowBefore(Suggested(picks, applyDate).value, applyDate)
  {
    LatestOfTwo(worked, applyDate);
  }

  /** Of two picks on consecutive-or-later days, the earlier is the latest
      strictly before the later one, and the later is the latest up to it. */
  lemma LatestOfTwo(a: Date, b: Date)
    requires DayNumber(a) < DayNumber(b)
    ensures LatestBelow([a, b], DayNumber(b)) == Some(a)
    ensures LatestBelow([a, b], DayNumber(b) + 1) == Some(b)
  {
    assert [a, b][1..] == [b];
    assert [b][1..] == [];
  }

  /** As written, the suggestion for these picks still has the application
      day in its window. */
  predicate AsWrittenKeepsApplyDay(picks: seq<Date>, applyDate: Date)
    requires forall i :: 0 <= i < |picks| ==> Valid(picks[i])
  {
    var s := SuggestedAsWritten(picks, applyDate);
    s.Some? && InWindowBefore(s.value, applyDate)
  }

  /** The corrected suggestion for these picks clears the application day. */
  predicate CorrectedClearsApplyDay(picks: seq<Date>, applyDate: Date)
    requires forall i :: 0 <= i < |picks| ==> Valid(picks[i])
  {
    var s := Suggested(picks, applyDate);
    s.Some? && !InWindowBefore(s.value, applyDate)
  }

  /** A concrete instance: applying on 2025-03-20 after working on 03-19 and
      03-20, the page suggests 2025-04-03, whose window 03-20..04-02 still
      holds the worked day 03-20; the corrected suggestion is 2025-04-04. */
  lemma SuggestedAsWrittenCounterexample(worked: Date, applyDate: Date)
    requires worked == Date(2025, 3, 19) && applyDate == Date(2025, 3, 20)
    requires Valid(worked) && Valid(applyDate)
    ensures AsWrittenKeepsApplyDay([worked, applyDate], applyDate)
    ensures CorrectedClearsApplyDay([worked, applyDate], applyDate)
  {
    NextStep(worked);
    AsWrittenMissesWorkedApplyDay(worked, applyDate);
  }

  /** What the page decides (daily_worker_eligibility1.py, the body of
      `daily_worker_eligibility_app` without the rendering). The suggestion
      is the one the page computes, from the picks strictly before the
      application date. */
  datatype Assessment = Assessment(
    totalDays: nat,
    workedDays: nat,
    condition1: bool,
    fourteenStart: Date,
    fourteenEnd: Date,
    condition2: bool,
    suggested: Option<Date>,
    general: bool,
    construction: bool)

  function Assess(applyDate: Date, picks: seq<Date>): (r: Assessment)
    requires HasPreviousMonth(applyDate)
    requires forall i :: 0 <= i < |picks| ==> Valid(picks[i])
    ensures r.totalDays == DayNumber(applyDate) - DayNumber(FirstOfPrevMonth(applyDate)) + 1
    ensures r.workedDays == |SelectedSet(picks)|
    ensures r.condition1 <==> 3 * r.workedDays < r.totalDays
    ensures Valid(r.fourteenStart) && DayNumber(r.fourteenStart) == DayNumber(applyDate) - 14
    ensures Valid(r.fourteenEnd) && DayNumber(r.fourteenEnd) == DayNumber(applyDate) - 1
    ensures r.condition2 <==> forall d :: d in picks ==> !InWindowBefore(applyDate, d)
    ensures r.condition2 ==> r.suggested.None?
    ensures !r.condition2 ==> r.suggested.Some? && Valid(r.suggested.value)
    ensures !r.condition2 ==>
              && LatestBelow(picks, DayNumber(applyDate)).Some?
              && DayNumber(r.suggested.value) == DayNumber(LatestBelow(picks, DayNumber(applyDate)).value) + SuggestionGap
    ensures !r.condition2 ==> forall d :: d in picks && DayNumber(d) < DayNumber(applyDate)
                                  ==> !InWindowBefore(r.suggested.value, d)
    ensures r.general == r.condition1
    ensures r.construction <==> r.condition1 || r.condition2
  {
    var (dateRange, startDate) := GetDateRange(applyDate);
    var selected := SelectedSet(picks);
    var totalDays := |dateRange|;
    var workedDays := |selected|;
    var condition1 := (workedDays as real) < EligibilityLogic.Threshold(totalDays);
    LateEnoughForWindow(applyDate);
    var fourteenEnd := MinusDays(applyDate, 1);
    var fourteenStart := MinusDays(fourteenEnd, WindowDays - 1);
    var window := FourteenDayWindow(applyDate);
    var workedIn14 := exists i :: 0 <= i < |window| && window[i] in selected;
    WindowHitsPicks(applyDate, picks);
    var condition2 := !workedIn14;
    var suggested := if condition2 then None else SuggestedAsWritten(picks, applyDate);
    Assessment(totalDays, workedDays, condition1, fourteenStart, fourteenEnd, condition2,
               suggested, condition1, condition1 || condition2)
  }

  /** The scan over the window's dates finds a pick exactly when some pick
      falls in the fourteen days before the application date. */
  lemma WindowHitsPicks(applyDate: Date, picks: seq<Date>)
    requires Valid(applyDate) && DayNumber(applyDate) > 14
    requires forall i :: 0 <= i < |picks| ==> Valid(picks[i])
    ensures var window := FourteenDayWindow(applyDate);
      (exists i :: 0 <= i < |window| && window[i] in SelectedSet(picks))
      <==> (exists d :: d in picks && InWindowBefore(applyDate, d))
  {
    var window := FourteenDayWindow(applyDate);
    if exists d :: d in picks && InWindowBefore(applyDate, d) {
      var d :| d in picks && InWindowBefore(applyDate, d);
      var k := DayNumber(d) - (DayNumber(applyDate) - 14);
      DayNumberInjective(window[k], d);
      assert window[k] in SelectedSet(picks);
    }
  }

  lemma NoHitsMeansZero(applyDate: Date, picks: seq<Date>)
    ensures (forall d :: d in picks ==> !InWindowBefore(applyDate, d))
        <==> |set d | d in picks && InWindowBefore(applyDate, d)| == 0
  {
    var hits := set d | d in picks && InWindowBefore(applyDate, d);
    if exists d :: d in picks && InWindowBefore(applyDate, d) {
      var d :| d in picks && InWindowBefore(applyDate, d);
      assert d in hits;
      assert |hits| > 0;
    } else {
      assert hits == {};
    }
  }

  /** The page's verdicts are those of `check_conditions` applied to the
      period length, the distinct worked days and the worked days in the
      fourteen-day window. */
  lemma AssessAgreesWithCheckConditions(applyDate: Date, picks: seq<Date>)
    requires HasPreviousMonth(applyDate)
    requires forall i :: 0 <= i < |picks| ==> Valid(picks[i])
    ensures var a := Assess(applyDate, picks);
      var c := EligibilityLogic.CheckConditions(a.totalDays, a.workedDays,
                 |set d | d in picks && InWindowBefore(applyDate, d)|);
      a.condition1 == c.condition1 && a.condition2 == c.condition2
      && a.general == c.general && a.construction == c.construction
  {
    var a := Assess(applyDate, picks);
    var hits := set d | d in picks && InWindowBefore(applyDate, d);
    NoHitsMeansZero(applyDate, picks);
    var c := EligibilityLogic.CheckConditions(a.totalDays, a.workedDays, |hits|);
    assert a.condition2 == c.condition2;
  }

  /** Unless the application day itself was picked, the page's suggestion
      clears every worked day up to the application date. */
  lemma {:induction false} AssessSuggestionClearsUnlessApplyDayPicked(applyDate: Date, picks: seq<Date>)
    requires HasPreviousMonth(applyDate)
    requires forall i :: 0 <= i < |picks| ==> Valid(picks[i])
    requires applyDate !in picks
    ensures var a := Assess(applyDate, picks);
      !a.condition2 ==> forall d :: d in picks && DayNumber(d) <= DayNumber(applyDate)
                          ==> !InWindowBefore(a.suggested.value, d)
  {
    SuggestedAgreesUnlessApplyDayPicked(picks, applyDate);
  }
}

=== FILE: date_format.dfy ===
/**
 The `%Y-%m-%d` text of a date and the order JavaScript puts such texts in.

 The calendar page hands its dates to the browser as `YYYY-MM-DD` strings and
 the browser compares them with `<`/`>=`, which is code-unit lexicographic
 order. With a four-digit zero-padded year, that order is date order.
 */
module DateFormat {
  import opened CivilDate

  function DigitChar(n: int): (c: char)
    requires 0 <= n <= 9
    ensures '0' <= c <= '9'
  {
    ('0' as int + n) as char
  }

  function Pow10(w: nat): (p: nat)
    ensures p >= 1
  {
    if w == 0 then 1 else 10 * Pow10(w - 1)
  }

  /** The last `w` decimal digits of `n`, zero-padded. */
  function Digits(n: nat, w: nat): (s: string)
    ensures |s| == w
    ensures forall i :: 0 <= i < |s| ==> '0' <= s[i] <= '9'
  {
    if w == 0 then [] else Digits(n / 10, w - 1) + [DigitChar(n % 10)]
  }

  /** The dates the model spells as `YYYY-MM-DD`: a year of at most four
      digits, which `Format` pads with zeros to four. */
  predicate Formattable(d: Date) {
    Valid(d) && d.year <= 9999
  }

  /** `d.strftime("%Y-%m-%d")`. */
  function Format(d: Date): (s: string)
    requires Formattable(d)
    ensures |s| == 10 && s[4] == '-' && s[7] == '-'
    ensures forall i :: 0 <= i < 10 && i != 4 && i != 7 ==> '0' <= s[i] <= '9'
  {
    Digits(d.year, 4) + ("-" + (Digits(d.month, 2) + ("-" + Digits(d.day, 2))))
  }

  /** JavaScript's `a < b` on strings: lexicographic order on code units, a
      proper prefix coming first. */
  predicate StrLess(a: string, b: string)
    ensures StrLess(a, b) ==> a != b
    ensures |a| < |b| && a == b[..|a|] ==> StrLess(a, b)
    decreases |a|
  {
    if |a| == 0 then |b| > 0
    else if |b| == 0 then false
    else if a[0] != b[0] then a[0] < b[0]
    else StrLess(a[1..], b[1..])
  }

  /** `StrLess` is a strict total order: of two different strings exactly
      one is smaller. */
  lemma {:induction false} StrLessTotal(a: string, b: string)
    ensures StrLess(a, b) ==> !StrLess(b, a)
    ensures a != b ==> StrLess(a, b) || StrLess(b, a)
    decreases |a|
  {
    if |a| > 0 && |b| > 0 && a[0] == b[0] {
      StrLessTotal(a[1..], b[1..]);
      if a[1..] == b[1..] {
        assert a == [a[0]] + a[1..] && b == [b[0]] + b[1..];
      }
    }
  }

  /** Comparing two concatenations whose first parts have equal length
      compares the first parts, then the second. */
  lemma {:induction false} StrLessConcat(a1: string, a2: string, b1: string, b2: string)
    requires |a1| == |b1|
    ensures StrLess(a1 + a2, b1 + b2) <==> StrLess(a1, b1) || (a1 == b1 && StrLess(a2, b2))
    decreases |a1|
  {
    if |a1| > 0 {
      assert (a1 + a2)[0] == a1[0] && (b1 + b2)[0] == b1[0];
      assert (a1 + a2)[1..] == a1[1..] + a2;
      assert (b1 + b2)[1..] == b1[1..] + b2;
      StrLessConcat(a1[1..], a2, b1[1..], b2);
      if a1[0] == b1[0] {
        assert a1 == b1 <==> a1[1..] == b1[1..] by {
          if a1[1..] == b1[1..] {
            assert a1 == [a1[0]] + a1[1..] && b1 == [b1[0]] + b1[1..];
          }
        }
      }
    } else {
      assert a1 + a2 == a2 && b1 + b2 == b2;
    }
  }

  /** Zero-padded digit strings of the same width sort as the numbers they
      spell, and spell equal numbers only when the numbers are equal. */
  lemma {:induction false} DigitsOrder(x: nat, y: nat, w: nat)
    requires x < Pow10(w) && y < Pow10(w)
    ensures StrLess(Digits(x, w), Digits(y, w)) <==> x < y
    ensures Digits(x, w) == Digits(y, w) <==> x == y
  {
    if w == 0 {
      assert x == 0 && y == 0;
    } else {
      DigitsOrder(x / 10, y / 10, w - 1);
      var cx := [DigitChar(x % 10)];
      var cy := [DigitChar(y % 10)];
      StrLessConcat(Digits(x / 10, w - 1), cx, Digits(y / 10, w - 1), cy);
      assert StrLess(cx, cy) <==> x % 10 < y % 10;
      if Digits(x, w) == Digits(y, w) {
        assert Digits(x / 10, w - 1) == Digits(x, w)[..w - 1] == Digits(y / 10, w - 1);
        assert cx[0] == Digits(x, w)[w - 1] == cy[0];
      }
    }
  }

  /** `YYYY-MM-DD` strings sort as the dates they spell (the property the
      page's string comparisons rely on), and distinct dates spell
      distinct strings. */
  lemma FormatOrder(a: Date, b: Date)
    requires Formattable(a) && Formattable(b)
    ensures StrLess(Format(a), Format(b)) <==> DayNumber(a) < DayNumber(b)
    ensures Format(a) == Format(b) <==> a == b
  {
    assert Pow10(2) == 100 && Pow10(4) == 10000;
    DigitsOrder(a.year, b.year, 4);
    DigitsOrder(a.month, b.month, 2);
    DigitsOrder(a.day, b.day, 2);
    var dayA := "-" + Digits(a.day, 2);
    var dayB := "-" + Digits(b.day, 2);
    StrLessConcat("-", Digits(a.day, 2), "-", Digits(b.day, 2));
    assert dayA == dayB <==> a.day == b.day by {
      if dayA == dayB {
        assert Digits(a.day, 2) == dayA[1..] == dayB[1..] == Digits(b.day, 2);
      }
    }
    var monthA := Digits(a.month, 2) + dayA;
    var monthB := Digits(b.month, 2) + dayB;
    StrLessConcat(Digits(a.month, 2), dayA, Digits(b.month, 2), dayB);
    assert monthA == monthB <==> a.month == b.month && a.day == b.day by {
      if monthA == monthB {
        assert Digits(a.month, 2) == monthA[..2] == monthB[..2] == Digits(b.month, 2);
        assert dayA == monthA[2..] == monthB[2..] == dayB;
      }
    }
    var restA := "-" + monthA;
    var restB := "-" + monthB;
    StrLessConcat("-", monthA, "-", monthB);
    assert restA == restB <==> monthA == monthB by {
      if restA == restB {
        assert monthA == restA[1..] == restB[1..] == monthB;
      }
    }
    StrLessConcat(Digits(a.year, 4), restA, Digits(b.year, 4), restB);
    if Format(a) == Format(b) {
      assert Digits(a.year, 4) == Format(a)[..4] == Format(b)[..4] == Digits(b.year, 4);
      assert restA == Format(a)[4..] == Format(b)[4..] == restB;
    }
    BeforeMeansSmallerDayNumber(a, b);
  }
}

=== FILE: date_range.dfy ===
/**
 Runs of consecutive dates and whole-day offsets: pandas' `date_range(start, end)`
 at daily frequency, and Python's `date ± timedelta(days=n)`.
 */
module DateRange {
  import opened CivilDate

  /** Every day from `start` through `end`, both included; empty when `end`
      comes before `start`. */
  function DaysFrom(start: Date, end: Date): (r: seq<Date>)
    requires Valid(start)
    ensures |r| == if DayNumber(end) < DayNumber(start) then 0 else DayNumber(end) - DayNumber(start) + 1
    ensures forall i :: 0 <= i < |r| ==> Valid(r[i]) && DayNumber(r[i]) == DayNumber(start) + i
    decreases DayNumber(end) - DayNumber(start)
  {
    if DayNumber(end) < DayNumber(start) then []
    else
      NextStep(start);
      [start] + DaysFrom(Next(start), end)
  }

  /** `d - timedelta(days=n)`. */
  function MinusDays(d: Date, n: nat): (r: Date)
    requires Valid(d) && DayNumber(d) > n
    ensures Valid(r) && DayNumber(r) == DayNumber(d) - n
    decreases n
  {
    if n == 0 then d
    else
      PrevStep(d);
      MinusDays(Prev(d), n - 1)
  }

  /** `d + timedelta(days=n)`. */
  function PlusDays(d: Date, n: nat): (r: Date)
    requires Valid(d)
    ensures Valid(r) && DayNumber(r) == DayNumber(d) + n
    decreases n
  {
    if n == 0 then d
    else
      NextStep(d);
      PlusDays(Next(d), n - 1)
  }

  /** Unrolling a run by its first day. */
  lemma DaysFromStep(start: Date, end: Date)
    requires Valid(start)
    ensures Valid(Next(start)) && DayNumber(Next(start)) == DayNumber(start) + 1
    ensures DayNumber(start) <= DayNumber(end) ==> DaysFrom(start, end) == [start] + DaysFrom(Next(start), end)
    ensures DayNumber(end) < DayNumber(start) ==> DaysFrom(start, end) == []
  {
    NextStep(start);
  }

  /** A non-empty run ends at its `end` argument and begins at `start`. */
  lemma DaysFromEnds(start: Date, end: Date)
    requires Valid(start) && Valid(end) && DayNumber(start) <= DayNumber(end)
    ensures var r := DaysFrom(start, end); |r| > 0 && r[0] == start && r[|r| - 1] == end
  {
    var r := DaysFrom(start, end);
    DayNumberInjective(r[0], start);
    DayNumberInjective(r[|r| - 1], end);
  }

  /** A valid date lies in the run exactly when its day number lies between
      the run's ends, and then at the index its day number gives. */
  lemma DaysFromMembership(start: Date, end: Date, d: Date)
    requires Valid(start) && Valid(d)
    ensures d in DaysFrom(start, end) <==> DayNumber(start) <= DayNumber(d) <= DayNumber(end)
    ensures d in DaysFrom(start, end) ==> DaysFrom(start, end)[DayNumber(d) - DayNumber(start)] == d
  {
    var r := DaysFrom(start, end);
    if DayNumber(start) <= DayNumber(d) <= DayNumber(end) {
      var k := DayNumber(d) - DayNumber(start);
      DayNumberInjective(r[k], d);
    }
    if d in r {
      var k :| 0 <= k < |r| && r[k] == d;
      assert DayNumber(d) == DayNumber(start) + k;
    }
  }
}

=== FILE: dom.dfy ===
/**
 The slice of the browser's document the page scripts touch: a sequence of
 element records in document order, the CSS selectors the scripts use, and
 `querySelector` (the first match in document order).
 */
module Dom {
  import opened Wrappers
  import opened Text

  /** An element as the scripts see it: its tag name, its class list (the
      tokens of its `class` attribute, in order), its other attributes, its
      text content and its inline `style.display`. */
  datatype Element = Element(
    tag: string,
    classes: seq<string>,
    attributes: map<string, string>,
    text: string,
    display: string)

  /** `element.getAttribute(name) === value`; a missing attribute is `null`,
      never equal to a string. */
  predicate AttributeIs(e: Element, name: string, value: string) {
    name in e.attributes && e.attributes[name] == value
  }

  /** The `class` attribute's text: the tokens joined by single spaces. */
  function ClassAttribute(classes: seq<string>): string {
    if |classes| == 0 then ""
    else if |classes| == 1 then classes[0]
    else classes[0] + " " + ClassAttribute(classes[1..])
  }

  /** The selectors the scripts use. */
  datatype Selector =
    | ClassSelector(name: string)                         // `.name`
    | TestIdSelector(id: string)                          // `[data-testid='id']`
    | TagTestIdSelector(tag: string, id: string)          // `tag[data-testid="id"]`
    | ClassContainsSelector(part: string)                 // `[class*='part']`

  /** Whether `e` matches `sel`. A `.name` match is also a `[class*='name']`
      match: the token occurs in the joined `class` attribute. */
  predicate Matches(e: Element, sel: Selector)
    ensures sel.ClassSelector? && Matches(e, sel) ==> Contains(ClassAttribute(e.classes), sel.name)
  {
    match sel
    case ClassSelector(name) => ClassTokenInAttribute(e.classes, name); name in e.classes
    case TestIdSelector(id) => AttributeIs(e, "data-testid", id)
    case TagTestIdSelector(tag, id) => e.tag == tag && AttributeIs(e, "data-testid", id)
    case ClassContainsSelector(part) => Contains(ClassAttribute(e.classes), part)
  }

  /** `document.querySelector(sel)`: the position of the first element, in
      document order, that matches; `None` for `null`. */
  function QuerySelector(doc: seq<Element>, sel: Selector): (r: Option<nat>)
    ensures r.None? <==> forall j :: 0 <= j < |doc| ==> !Matches(doc[j], sel)
    ensures r.Some? ==> r.value < |doc| && Matches(doc[r.value], sel)
    ensures r.Some? ==> forall j :: 0 <= j < r.value ==> !Matches(doc[j], sel)
  {
    if |doc| == 0 then None
    else if Matches(doc[0], sel) then Some(0)
    else
      match QuerySelector(doc[1..], sel)
      case None => None
      case Some(k) => Some(k + 1)
  }

  /** Two documents whose elements match a selector at the same positions
      give the same `querySelector` answer. */
  lemma {:induction false} QuerySelectorAgrees(doc: seq<Element>, other: seq<Element>, sel: Selector)
    requires |doc| == |other|
    requires forall j :: 0 <= j < |doc| ==> (Matches(doc[j], sel) <==> Matches(other[j], sel))
    ensures QuerySelector(doc, sel) == QuerySelector(other, sel)
  {
    if |doc| > 0 {
      QuerySelectorAgrees(doc[1..], other[1..], sel);
    }
  }

  /** A string found in one part of a concatenation is found in the whole. */
  lemma ContainsInConcat(a: string, b: string, needle: string)
    ensures Contains(a, needle) ==> Contains(a + b, needle)
    ensures Contains(b, needle) ==> Contains(a + b, needle)
  {
    ContainsAt(a, needle);
    ContainsAt(b, needle);
    ContainsAt(a + b, needle);
    if Contains(a, needle) {
      var i :| OccursAt(a, needle, i);
      assert (a + b)[i..i + |needle|] == a[i..i + |needle|];
      assert OccursAt(a + b, needle, i);
    }
    if Contains(b, needle) {
      var i :| OccursAt(b, needle, i);
      assert (a + b)[|a| + i..|a| + i + |needle|] == b[i..i + |needle|];
      assert OccursAt(a + b, needle, |a| + i);
    }
  }

  /** A class token holding a string puts that string in the `class`
      attribute: `.name` elements match `[class*='name']`. */
  /** A class token occurs in the `class` attribute's text. */
  lemma ClassTokenInAttribute(classes: seq<string>, name: string)
    ensures name in classes ==> Contains(ClassAttribute(classes), name)
  {
    if name in classes {
      assert OccursAt(name, name, 0);
      ContainsAt(name, name);
      TokenInClassAttribute(classes, name, name);
    }
  }

  lemma {:induction false} TokenInClassAttribute(classes: seq<string>, token: string, part: string)
    requires token in classes && Contains(token, part)
    ensures Contains(ClassAttribute(classes), part)
    decreases |classes|
  {
    if |classes| > 1 {
      var rest := ClassAttribute(classes[1..]);
      assert ClassAttribute(classes) == classes[0] + (" " + rest);
      if token == classes[0] {
        ContainsInConcat(classes[0], " " + rest, part);
      } else {
        TokenInClassAttribute(classes[1..], token, part);
        ContainsInConcat(" ", rest, part);
        ContainsInConcat(classes[0], " " + rest, part);
      }
    }
  }
}

=== FILE: eligibility_logic.dfy ===
/**
 The stand-alone verdict function of app/eligibility_logic.py: given the length
 of the look-back period, the number of days worked in it and the number of
 days worked in the fourteen days before the application, decide whether a
 general daily worker and a construction daily worker may apply.
 */
module EligibilityLogic {

  /** The dictionary `check_conditions` returns, without the float
      `threshold` entry (its comparison is kept, as `condition1`). */
  datatype Conditions = Conditions(condition1: bool, condition2: bool, general: bool, construction: bool)

  /** Python's `total_days / 3` is true division; the comparison
      `worked_days < threshold` is taken on the real quotient. */
  function Threshold(totalDays: int): real {
    (totalDays as real) / 3.0
  }

  /** `check_conditions(total_days, worked_days, fourteen_days_worked)`. */
  function CheckConditions(totalDays: int, workedDays: int, fourteenDaysWorked: int): (r: Conditions)
    ensures r.condition1 <==> 3 * workedDays < totalDays
    ensures r.condition2 <==> fourteenDaysWorked == 0
    ensures r.general == r.condition1
    ensures r.construction <==> r.condition1 || r.condition2
  {
    var condition1 := (workedDays as real) < Threshold(totalDays);
    var condition2 := fourteenDaysWorked == 0;
    Conditions(condition1, condition2, condition1, condition1 || condition2)
  }

  /** Whoever may apply as a general daily worker may apply as a construction
      daily worker. */
  lemma GeneralImpliesConstruction(totalDays: int, workedDays: int, fourteenDaysWorked: int)
    ensures CheckConditions(totalDays, workedDays, fourteenDaysWorked).general
        ==> CheckConditions(totalDays, workedDays, fourteenDaysWorked).construction
  {
  }

  /** Working more days in the same period never makes condition 1 hold when
      it did not. */
  lemma Condition1Monotone(totalDays: int, workedDays: int, moreWorkedDays: int, fourteenDaysWorked: int)
    requires workedDays <= moreWorkedDays
    ensures CheckConditions(totalDays, moreWorkedDays, fourteenDaysWorked).condition1
        ==> CheckConditions(totalDays, workedDays, fourteenDaysWorked).condition1
  {
  }

  /** A worker with no work in the last fourteen days may always apply as a
      construction daily worker, however many days they worked before. */
  lemma IdleFortnightSufficesForConstruction(totalDays: int, workedDays: int)
    ensures CheckConditions(totalDays, workedDays, 0).construction
  {
  }
}

=== FILE: menu_search.dfy ===
/**
 The sidebar of main.py: the search box that narrows the ordered menu of
 main menus and their sub-menus, and the choice of page from the selected
 sub-menu.

 The menu is a Python dict (insertion-ordered, distinct keys), modelled as a
 sequence of entries with distinct main-menu names. The question lists come
 from modules that are not part of this model and are taken as inputs.
 */
module MenuSearch {
  import opened Wrappers
  import opened Text
  import opened Sequences

  // ---------------------------------------------------------------------------
  // Menus and questions

  /** One `main_menu: [sub_menus]` entry of the ordered menu dict. */
  datatype MenuEntry = MenuEntry(main: string, subs: seq<string>)

  function Mains(menus: seq<MenuEntry>): (r: seq<string>)
    ensures |r| == |menus|
    ensures forall i :: 0 <= i < |menus| ==> r[i] == menus[i].main
  {
    if |menus| == 0 then [] else [menus[0].main] + Mains(menus[1..])
  }

  /** Dict keys are distinct. */
  predicate DistinctMains(menus: seq<MenuEntry>) {
    Distinct(Mains(menus))
  }

  /** `menus` of main.py, in insertion order: a dict, so its main menus are
      distinct, and every sub-menu in it has a page of its own. */
  function MenuTable(): (r: seq<MenuEntry>)
    ensures |r| == 4 && DistinctMains(r)
    ensures forall e :: e in r ==> forall s :: s in e.subs ==> s in SubMenuNames
  {
    [
    MenuEntry("수급자격", ["임금 체불 판단", "원거리 발령 판단"]),
    MenuEntry("실업인정", ["실업인정"]),
    MenuEntry("취업촉진수당", ["조기재취업수당"]),
    MenuEntry("실업급여 신청가능 시점", ["실업급여 신청 가능 시점", "일용직(건설일용포함)"])
    ]
  }

  /** `all_questions` of main.py, built from the question lists the imported
      question getters return. "실업인정" has no questions, and
      "실업급여 신청 가능 시점" is not a key at all. */
  function AllQuestions(wageDelay: seq<string>, remoteAssignment: seq<string>, employment: seq<string>,
                        selfEmployment: seq<string>, dailyWorker: seq<string>): (r: map<string, seq<string>>)
    ensures "실업인정" in r && r["실업인정"] == []
    ensures "실업급여 신청 가능 시점" !in r
  {
    map["임금 체불 판단" := wageDelay,
        "원거리 발령 판단" := remoteAssignment,
        "실업인정" := [],
        "조기재취업수당" := employment + selfEmployment,
        "일용직(건설일용포함)" := dailyWorker]
  }

  /** `all_questions.get(sub, [])`. */
  function QuestionsFor(questions: map<string, seq<string>>, sub: string): seq<string> {
    if sub in questions then questions[sub] else []
  }

  /** The test on one sub-menu, for a query already lowered:
      `query in sub.lower() or any(query in q.lower() for q in questions)`. */
  predicate SubMatches(query: string, sub: string, questions: map<string, seq<string>>): (b: bool)
    ensures |query| == 0 ==> b
  {
    Contains(Lower(sub), query)
    || exists i :: 0 <= i < |QuestionsFor(questions, sub)| && Contains(Lower(QuestionsFor(questions, sub)[i]), query)
  }

  /** The inner loop: `filtered_sub_menus`, the sub-menus the query matches,
      in their order. */
  function FilterSubs(query: string, subs: seq<string>, questions: map<string, seq<string>>): (r: seq<string>)
    ensures forall x :: x in r <==> x in subs && SubMatches(query, x, questions)
    ensures IsSubsequence(r, subs)
  {
    if |subs| == 0 then []
    else
      var rest := FilterSubs(query, subs[1..], questions);
      assert forall x :: x in subs <==> x == subs[0] || x in subs[1..];
      if SubMatches(query, subs[0], questions) then [subs[0]] + rest
      else
        SkipHead(rest, subs);
        rest
  }

  /** Whether an entry survives the outer loop, and with which sub-menus. */
  predicate EntryKept(query: string, e: MenuEntry, questions: map<string, seq<string>>): (b: bool)
    ensures |query| == 0 ==> b
  {
    |FilterSubs(query, e.subs, questions)| > 0 || Contains(Lower(e.main), query)
  }

  /** The outer loop for a non-empty, lowered query: `filtered_menus`. */
  function FilterEntries(query: string, menus: seq<MenuEntry>, questions: map<string, seq<string>>): (r: seq<MenuEntry>)
    ensures forall e :: e in r <==>
      exists j :: 0 <= j < |menus| && EntryKept(query, menus[j], questions)
        && e == MenuEntry(menus[j].main, FilterSubs(query, menus[j].subs, questions))
    ensures IsSubsequence(Mains(r), Mains(menus))
  {
    if |menus| == 0 then []
    else
      var head := menus[0];
      var rest := FilterEntries(query, menus[1..], questions);
      assert Mains(menus)[1..] == Mains(menus[1..]);
      assert forall j :: 1 <= j < |menus| ==> menus[j] == menus[1..][j - 1];
      if EntryKept(query, head, questions) then
        var r := [MenuEntry(head.main, FilterSubs(query, head.subs, questions))] + rest;
        assert Mains(r)[1..] == Mains(rest);
        r
      else
        SkipHead(Mains(rest), Mains(menus));
        rest
  }

  /** The menu the sidebar shows for the raw search text: all of it for an
      empty query, otherwise the entries the lowered query keeps. */
  function FilterMenus(searchQuery: string, menus: seq<MenuEntry>, questions: map<string, seq<string>>): (r: seq<MenuEntry>)
    ensures searchQuery == [] ==> r == menus
    ensures IsSubsequence(Mains(r), Mains(menus))
    ensures searchQuery != [] ==> forall e :: e in r <==>
      exists j :: 0 <= j < |menus| && EntryKept(Lower(searchQuery), menus[j], questions)
        && e == MenuEntry(menus[j].main, FilterSubs(Lower(searchQuery), menus[j].subs, questions))
  {
    if searchQuery == [] then
      SubsequenceReflexive(Mains(menus));
      menus
    else FilterEntries(Lower(searchQuery), menus, questions)
  }

  /** The filtered menu is still a dict: its main-menu names stay distinct. */
  lemma FilterKeepsDistinctMains(searchQuery: string, menus: seq<MenuEntry>, questions: map<string, seq<string>>)
    requires DistinctMains(menus)
    ensures DistinctMains(FilterMenus(searchQuery, menus, questions))
  {
    var r := FilterMenus(searchQuery, menus, questions);
    SubsequenceKeepsDistinct(Mains(r), Mains(menus));
  }

  /** The search ignores case: a query and its lower-cased form keep the
      same entries, since the query is lowered before any comparison. */
  lemma SearchIgnoresCase(searchQuery: string, menus: seq<MenuEntry>, questions: map<string, seq<string>>)
    ensures FilterMenus(Lower(searchQuery), menus, questions) == FilterMenus(searchQuery, menus, questions)
  {
    LowerIdempotent(searchQuery);
  }

  /** "실업인정" has no questions, so a query keeps it only by its own name. */
  lemma RecognitionMatchesByNameOnly(query: string, wageDelay: seq<string>, remoteAssignment: seq<string>,
                                     employment: seq<string>, selfEmployment: seq<string>, dailyWorker: seq<string>)
    ensures var questions := AllQuestions(wageDelay, remoteAssignment, employment, selfEmployment, dailyWorker);
      SubMatches(query, "실업인정", questions) <==> Contains("실업인정", query)
  {
    var questions := AllQuestions(wageDelay, remoteAssignment, employment, selfEmployment, dailyWorker);
    assert QuestionsFor(questions, "실업인정") == [];
    assert Lower("실업인정") == "실업인정";
  }

  // ---------------------------------------------------------------------------
  // Dispatch

  /** What the main area shows. */
  datatype Page =
    | WageDelayApp
    | RemoteAssignmentApp
    | UnemploymentRecognitionApp
    | EarlyReemploymentApp
    | TimingNotice          // the fixed `st.info` text for "실업급여 신청 가능 시점"
    | DailyWorkerApp
    | Welcome               // the hint shown when nothing is selected or searched
    | Nothing

  /** The `if`/`elif` chain on `st.session_state.current_selected_sub_menu`;
      `None` is the state before any button was pressed or after a main-menu
      button cleared it. */
  function Dispatch(selection: Option<string>, searchQuery: string): (p: Page)
    ensures p == Welcome <==> (selection.None? || selection.value == "") && searchQuery == ""
    ensures p == Nothing <==> (selection.None? || selection.value !in SubMenuNames)
                              && !((selection.None? || selection.value == "") && searchQuery == "")
    ensures selection.Some? && selection.value in SubMenuNames ==> p != Welcome && p != Nothing
  {
    if selection == Some("임금 체불 판단") then WageDelayApp
    else if selection == Some("원거리 발령 판단") then RemoteAssignmentApp
    else if selection == Some("실업인정") then UnemploymentRecognitionApp
    else if selection == Some("조기재취업수당") then EarlyReemploymentApp
    else if selection == Some("실업급여 신청 가능 시점") then TimingNotice
    else if selection == Some("일용직(건설일용포함)") then DailyWorkerApp
    else if (selection.None? || selection.value == "") && searchQuery == "" then Welcome
    else Nothing
  }

  /** Every sub-menu name of the menu table, in order. */
  const SubMenuNames: seq<string> := [
    "임금 체불 판단", "원거리 발령 판단", "실업인정", "조기재취업수당",
    "실업급여 신청 가능 시점", "일용직(건설일용포함)"
  ]

  /** The position in `SubMenuNames` of the sub-menu a page belongs to. */
  function PagePosition(p: Page): int {
    match p
    case WageDelayApp => 0
    case RemoteAssignmentApp => 1
    case UnemploymentRecognitionApp => 2
    case EarlyReemploymentApp => 3
    case TimingNotice => 4
    case DailyWorkerApp => 5
    case Welcome => -1
    case Nothing => -1
  }

  /** Every sub-menu button leads to its own page: no two sub-menus share a
      page and none falls through to the hint or to nothing. */
  lemma EverySubMenuHasItsOwnPage(searchQuery: string)
    ensures forall e :: e in MenuTable() ==> forall s :: s in e.subs ==> s in SubMenuNames
    ensures forall i, j :: 0 <= i < j < |SubMenuNames| ==>
      Dispatch(Some(SubMenuNames[i]), searchQuery) != Dispatch(Some(SubMenuNames[j]), searchQuery)
    ensures forall i :: 0 <= i < |SubMenuNames| ==>
      Dispatch(Some(SubMenuNames[i]), searchQuery) !in {Welcome, Nothing}
  {
    forall i | 0 <= i < |SubMenuNames|
      ensures PagePosition(Dispatch(Some(SubMenuNames[i]), searchQuery)) == i
    {
      SubMenuPage(i, searchQuery);
    }
  }

  /** The sub-menu at position `i` leads to the page of position `i`. */
  lemma SubMenuPage(i: nat, searchQuery: string)
    requires i < |SubMenuNames|
    ensures PagePosition(Dispatch(Some(SubMenuNames[i]), searchQuery)) == i
  {
    if i == 0 {
    } else if i == 1 {
    } else if i == 2 {
    } else if i == 3 {
    } else if i == 4 {
    } else {
    }
  }
}

=== FILE: sequences.dfy ===
/** Facts about sequences that several modules share: having no repeats, and
    being a subsequence of another sequence. */
module Sequences {

  /** No element occurs twice. */
  predicate Distinct<T(==)>(s: seq<T>) {
    forall i, j :: 0 <= i < j < |s| ==> s[i] != s[j]
  }

  /** `a` is `b` with some elements left out, the rest in their order. */
  predicate IsSubsequence<T(==)>(a: seq<T>, b: seq<T>)
    decreases |b|
  {
    if |a| == 0 then true
    else if |b| == 0 then false
    else if a[0] == b[0] then IsSubsequence(a[1..], b[1..])
    else IsSubsequence(a, b[1..])
  }

  /** A subsequence of the tail is a subsequence of the whole. */
  lemma {:induction false} SkipHead<T>(a: seq<T>, b: seq<T>)
    requires |b| > 0 && IsSubsequence(a, b[1..])
    ensures IsSubsequence(a, b)
    decreases |b|, 0
  {
    if |a| > 0 && a[0] == b[0] {
      SubsequenceTail(a, b[1..]);
    }
  }

  /** Dropping the first element of a subsequence leaves a subsequence. */
  lemma {:induction false} SubsequenceTail<T>(a: seq<T>, b: seq<T>)
    requires |a| > 0 && IsSubsequence(a, b)
    ensures IsSubsequence(a[1..], b)
    decreases |b|, 1
  {
    if a[0] != b[0] {
      SubsequenceTail(a, b[1..]);
    }
    SkipHead(a[1..], b);
  }

  lemma {:induction false} SubsequenceReflexive<T>(a: seq<T>)
    ensures IsSubsequence(a, a)
    decreases |a|
  {
    if |a| > 0 {
      SubsequenceReflexive(a[1..]);
    }
  }

  /** A subsequence of a sequence without repeats has none either, and all
      its elements come from that sequence. */
  lemma {:induction false} SubsequenceKeepsDistinct<T>(a: seq<T>, b: seq<T>)
    requires IsSubsequence(a, b)
    requires Distinct(b)
    ensures Distinct(a)
    ensures forall x :: x in a ==> x in b
    decreases |b|
  {
    if |a| > 0 {
      assert Distinct(b[1..]) by {
        forall i, j | 0 <= i < j < |b[1..]| ensures b[1..][i] != b[1..][j] {
          assert b[1..][i] == b[i + 1] && b[1..][j] == b[j + 1];
        }
      }
      if a[0] == b[0] {
        SubsequenceKeepsDistinct(a[1..], b[1..]);
        forall i, j | 0 <= i < j < |a| ensures a[i] != a[j] {
          if i == 0 {
            assert a[j] == a[1..][j - 1];
            assert a[j] in b[1..];
            var k :| 0 <= k < |b[1..]| && b[1..][k] == a[j];
            assert b[k + 1] == a[j];
          } else {
            assert a[i] == a[1..][i - 1] && a[j] == a[1..][j - 1];
          }
        }
        forall x | x in a ensures x in b {
          if x != a[0] {
            var k :| 0 <= k < |a| && a[k] == x;
            assert x == a[1..][k - 1];
            InTail(x, b);
          }
        }
      } else {
        SubsequenceKeepsDistinct(a, b[1..]);
        forall x | x in a ensures x in b {
          InTail(x, b);
        }
      }
    }
  }

  lemma InTail<T>(x: T, b: seq<T>)
    requires |b| > 0 && x in b[1..]
    ensures x in b
  {
    var m :| 0 <= m < |b[1..]| && b[1..][m] == x;
    assert b[m + 1] == x;
  }

  /** A subsequence holds each element at most as often as the whole. */
  lemma {:induction false} SubsequenceMultiset<T>(a: seq<T>, b: seq<T>)
    requires IsSubsequence(a, b)
    ensures multiset(a) <= multiset(b)
    decreases |b|
  {
    if |a| > 0 {
      assert b == [b[0]] + b[1..];
      if a[0] == b[0] {
        SubsequenceMultiset(a[1..], b[1..]);
        assert a == [a[0]] + a[1..];
      } else {
        SubsequenceMultiset(a, b[1..]);
      }
    }
  }
}

=== FILE: sidebar_button.dfy ===
/**
 static/sidebar_button.js: `updateSidebarButtonText` relabels Streamlit's
 sidebar button from its `aria-expanded` state, and a MutationObserver re-runs
 it on DOM changes. The document the update leaves is a fixed point of it, but
 its own writes queue mutation records the observer listens for, so as written
 the observer keeps calling it; `UpdateIfChanged` is the variant that writes
 only what differs and falls silent once the label is right.
 */
module SidebarButton {
  import opened Wrappers
  import opened Dom

  /** `button[data-testid="stBaseButton-headerNoPadding"]`. */
  const ButtonSelector: Selector := TagTestIdSelector("button", "stBaseButton-headerNoPadding")

  /** `getAttribute('aria-expanded') === 'true'`. */
  predicate IsExpanded(e: Element) {
    AttributeIs(e, "aria-expanded", "true")
  }

  /** The accessible label and the visible text for a sidebar state. */
  function AriaLabelFor(expanded: bool): string {
    if expanded then "메뉴 닫기" else "메뉴 열기"
  }

  function TextFor(expanded: bool): string {
    if expanded then "메뉴닫기" else "메뉴열기"
  }

  /** The two writes on the found button: `setAttribute('aria-label', …)` and
      `innerHTML = …`. */
  function Relabel(e: Element): (r: Element)
    ensures r.tag == e.tag && r.classes == e.classes && r.display == e.display
    ensures r.attributes.Keys == e.attributes.Keys + {"aria-label"}
    ensures forall name :: name in e.attributes && name != "aria-label" ==> r.attributes[name] == e.attributes[name]
    ensures AttributeIs(r, "aria-label", AriaLabelFor(IsExpanded(e)))
    ensures r.text == TextFor(IsExpanded(e))
  {
    var expanded := IsExpanded(e);
    e.(attributes := e.attributes["aria-label" := AriaLabelFor(expanded)], text := TextFor(expanded))
  }

  /** `updateSidebarButtonText()`. */
  function UpdateSidebarButtonText(doc: seq<Element>): (r: seq<Element>)
    ensures |r| == |doc|
    ensures QuerySelector(doc, ButtonSelector).None? ==> r == doc
    ensures QuerySelector(doc, ButtonSelector).Some? ==>
      var i := QuerySelector(doc, ButtonSelector).value;
      && AttributeIs(r[i], "aria-label", if IsExpanded(doc[i]) then "메뉴 닫기" else "메뉴 열기")
      && r[i].text == (if IsExpanded(doc[i]) then "메뉴닫기" else "메뉴열기")
      && r[i] == Relabel(doc[i])
      && (forall j :: 0 <= j < |doc| && j != i ==> r[j] == doc[j])
    ensures forall j :: 0 <= j < |doc| ==>
      && r[j].tag == doc[j].tag && r[j].classes == doc[j].classes && r[j].display == doc[j].display
      && ("aria-expanded" in r[j].attributes <==> "aria-expanded" in doc[j].attributes)
      && ("aria-expanded" in doc[j].attributes ==> r[j].attributes["aria-expanded"] == doc[j].attributes["aria-expanded"])
  {
    match QuerySelector(doc, ButtonSelector)
    case None => doc
    case Some(i) => doc[i := Relabel(doc[i])]
  }

  /** The update finds the same button again afterwards: it touches neither
      the tag nor `data-testid`. */
  lemma UpdateKeepsButton(doc: seq<Element>)
    ensures QuerySelector(UpdateSidebarButtonText(doc), ButtonSelector) == QuerySelector(doc, ButtonSelector)
  {
    var once := UpdateSidebarButtonText(doc);
    forall j | 0 <= j < |doc| ensures Matches(doc[j], ButtonSelector) <==> Matches(once[j], ButtonSelector) {
      assert "data-testid" != "aria-label";
    }
    QuerySelectorAgrees(doc, once, ButtonSelector);
  }

  /** Running the update again changes nothing: the button it finds is the
      same one, and its state, hence its label, is unchanged. */
  lemma UpdateIdempotent(doc: seq<Element>)
    ensures UpdateSidebarButtonText(UpdateSidebarButtonText(doc)) == UpdateSidebarButtonText(doc)
  {
    var once := UpdateSidebarButtonText(doc);
    UpdateKeepsButton(doc);
    var found := QuerySelector(doc, ButtonSelector);
    if found.Some? {
      var i := found.value;
      assert IsExpanded(once[i]) == IsExpanded(doc[i]);
      assert Relabel(once[i]) == once[i];
    }
  }

  // ---------------------------------------------------------------------------
  // The observer

  /** A mutation record on the element at a position: an attribute change
      names the attribute, a `childList` change is any replacement of the
      element's children. */
  datatype MutationRecord = AttributeRecord(target: nat, name: string) | ChildListRecord(target: nat)

  /** `attributeFilter: ['aria-expanded', 'aria-label']`. */
  const ObservedAttributes: set<string> := {"aria-expanded", "aria-label"}

  /** The observer watches the whole body (`subtree: true`), every change of
      children (`childList: true`) and the filtered attributes. */
  predicate Observed(m: MutationRecord): (b: bool)
    ensures m.ChildListRecord? ==> b
    ensures m.AttributeRecord? && m.name == "aria-label" ==> b
    ensures m.AttributeRecord? && m.name == "class" ==> !b
  {
    match m
    case AttributeRecord(_, name) => name in ObservedAttributes
    case ChildListRecord(_) => true
  }

  /** Some record of a batch reaches the observer, which then calls the
      update once more. */
  predicate NotifiesObserver(records: seq<MutationRecord>) {
    exists k :: 0 <= k < |records| && Observed(records[k])
  }

  /** The records one run of `updateSidebarButtonText` queues. The DOM queues
      an attribute record on every `setAttribute`, even one that stores the
      value already there, and a `childList` record whenever `innerHTML`
      replaces the children by a non-empty text. */
  function UpdateRecords(doc: seq<Element>): (r: seq<MutationRecord>)
    ensures r == [] <==> QuerySelector(doc, ButtonSelector).None?
    ensures r != [] ==> NotifiesObserver(r)
    ensures forall k :: 0 <= k < |r| ==> r[k].target == QuerySelector(doc, ButtonSelector).value
  {
    match QuerySelector(doc, ButtonSelector)
    case None => []
    case Some(i) =>
      var r := [AttributeRecord(i, "aria-label"), ChildListRecord(i)];
      assert Observed(r[1]);
      r
  }

  /** The document after the initial run and `n` observer callbacks, were
      each callback to run to completion before the next: every callback
      leaves the document the initial run left. */
  function Rerun(doc: seq<Element>, n: nat): (r: seq<Element>)
    ensures r == UpdateSidebarButtonText(doc)
    decreases n
  {
    if n == 0 then UpdateSidebarButtonText(doc)
    else
      UpdateIdempotent(doc);
      UpdateSidebarButtonText(Rerun(doc, n - 1))
  }

  /** As written, the observer never falls silent while the button exists:
      every callback leaves the same document, still holding the button, and
      every callback's own writes notify the observer again. */
  lemma ObserverNeverSettles(doc: seq<Element>, n: nat)
    requires QuerySelector(doc, ButtonSelector).Some?
    ensures Rerun(doc, n) == UpdateSidebarButtonText(doc)
    ensures QuerySelector(Rerun(doc, n), ButtonSelector) == QuerySelector(doc, ButtonSelector)
    ensures NotifiesObserver(UpdateRecords(Rerun(doc, n)))
  {
    var after := Rerun(doc, n);
    UpdateKeepsButton(doc);
    assert QuerySelector(after, ButtonSelector).Some?;
    assert UpdateRecords(after) != [];
  }

  /** The update with each write skipped when it would store what is
      already there: the document it leaves, and the records its writes
      queue. */
  function UpdateIfChanged(doc: seq<Element>): (r: (seq<Element>, seq<MutationRecord>))
    ensures r.0 == UpdateSidebarButtonText(doc)
    ensures r.1 == [] <==> r.0 == doc
    ensures forall k :: 0 <= k < |r.1| ==> Observed(r.1[k]) && r.1[k].target == QuerySelector(doc, ButtonSelector).value
  {
    match QuerySelector(doc, ButtonSelector)
    case None => (doc, [])
    case Some(i) =>
      var e := doc[i];
      var expanded := IsExpanded(e);
      var labelWrite := if AttributeIs(e, "aria-label", AriaLabelFor(expanded)) then [] else [AttributeRecord(i, "aria-label")];
      var textWrite := if e.text == TextFor(expanded) then [] else [ChildListRecord(i)];
      RelabelUnchanged(e);
      (doc[i := Relabel(e)], labelWrite + textWrite)
  }

  /** Relabelling leaves an element as it was exactly when both its label and
      its text are already the ones for its state. */
  lemma RelabelUnchanged(e: Element)
    ensures Relabel(e) == e <==> AttributeIs(e, "aria-label", AriaLabelFor(IsExpanded(e))) && e.text == TextFor(IsExpanded(e))
  {
    var r := Relabel(e);
    if AttributeIs(e, "aria-label", AriaLabelFor(IsExpanded(e))) && e.text == TextFor(IsExpanded(e)) {
      assert r.attributes == e.attributes;
    }
  }

  /** With the writes skipped when nothing changes, the callback the first
      run's writes provoke queues no record, and the observer falls silent. */
  lemma CorrectedObserverSettles(doc: seq<Element>)
    ensures UpdateIfChanged(UpdateIfChanged(doc).0).1 == []
  {
    UpdateIdempotent(doc);
  }
}

=== FILE: sidebar_toggle.dfy ===
/**
 static/script.js: `toggleSidebar` collapses or expands the element with
 class `stSidebar` and relabels the `.toggle-btn` button to match.
 */
module SidebarToggle {
  import opened Wrappers
  import opened Dom

  const SidebarSelector: Selector := ClassSelector("stSidebar")
  const ButtonSelector: Selector := ClassSelector("toggle-btn")

  /** Reading `classList` or setting `textContent` on `null` throws a
      `TypeError`; the writes made before it stay. */
  datatype Outcome =
    | Completed(doc: seq<Element>)
    | Threw(doc: seq<Element>)

  /** The class list without any `name` token. */
  function RemoveClass(classes: seq<string>, name: string): (r: seq<string>)
    ensures forall c :: c in r <==> c in classes && c != name
  {
    if |classes| == 0 then []
    else
      assert forall c :: c in classes <==> c == classes[0] || c in classes[1..];
      (if classes[0] == name then [] else [classes[0]]) + RemoveClass(classes[1..], name)
  }

  /** `classList.toggle(name)`: removes the token when present, appends it
      otherwise. */
  function ToggleClass(classes: seq<string>, name: string): (r: seq<string>)
    ensures name in r <==> name !in classes
    ensures forall c :: c != name ==> (c in r <==> c in classes)
  {
    if name in classes then RemoveClass(classes, name) else classes + [name]
  }

  /** The label the button gets for the sidebar's new class list. */
  function LabelFor(collapsed: bool): (r: string)
    ensures collapsed <==> r == "메뉴열기"
    ensures r == "메뉴열기" || r == "메뉴닫기"
  {
    if collapsed then "메뉴열기" else "메뉴닫기"
  }

  /** `toggleSidebar()`. Both elements are looked up before any write; the
      sidebar and the button may be the same element. */
  function ToggleSidebar(doc: seq<Element>): (r: Outcome)
    ensures QuerySelector(doc, SidebarSelector).None? ==> r == Threw(doc)
    ensures QuerySelector(doc, SidebarSelector).Some? ==>
      var s := QuerySelector(doc, SidebarSelector).value;
      && |r.doc| == |doc|
      && ("collapsed" in r.doc[s].classes <==> "collapsed" !in doc[s].classes)
      && (forall c :: c != "collapsed" ==> (c in r.doc[s].classes <==> c in doc[s].classes))
      && (r.Completed? <==> QuerySelector(doc, ButtonSelector).Some?)
      && (r.Completed? ==>
            r.doc[QuerySelector(doc, ButtonSelector).value].text
              == (if "collapsed" in r.doc[s].classes then "메뉴열기" else "메뉴닫기"))
      && (forall j :: 0 <= j < |doc| && j != s
            && (QuerySelector(doc, ButtonSelector).None? || j != QuerySelector(doc, ButtonSelector).value)
            ==> r.doc[j] == doc[j])
      && ((QuerySelector(doc, ButtonSelector).None? || QuerySelector(doc, ButtonSelector).value != s)
            ==> r.doc[s].text == doc[s].text)
      && ((QuerySelector(doc, ButtonSelector).Some? && QuerySelector(doc, ButtonSelector).value != s)
            ==> r.doc[QuerySelector(doc, ButtonSelector).value].classes == doc[QuerySelector(doc, ButtonSelector).value].classes)
    ensures |r.doc| == |doc|
    ensures forall j :: 0 <= j < |doc| ==> r.doc[j].(classes := doc[j].classes, text := doc[j].text) == doc[j]
  {
    var sidebar := QuerySelector(doc, SidebarSelector);
    var button := QuerySelector(doc, ButtonSelector);
    match sidebar
    case None => Threw(doc)
    case Some(s) =>
      var toggled := doc[s := doc[s].(classes := ToggleClass(doc[s].classes, "collapsed"))];
      match button
      case None => Threw(toggled)
      case Some(b) =>
        var collapsed := "collapsed" in toggled[s].classes;
        Completed(toggled[b := toggled[b].(text := LabelFor(collapsed))])
  }

  /** A toggle changes neither which element is the sidebar nor which is
      the button, nor any class list but the sidebar's. */
  lemma {:induction false} ToggleKeepsLookups(doc: seq<Element>)
    requires QuerySelector(doc, SidebarSelector).Some? && QuerySelector(doc, ButtonSelector).Some?
    ensures ToggleSidebar(doc).Completed?
    ensures QuerySelector(ToggleSidebar(doc).doc, SidebarSelector) == QuerySelector(doc, SidebarSelector)
    ensures QuerySelector(ToggleSidebar(doc).doc, ButtonSelector) == QuerySelector(doc, ButtonSelector)
    ensures forall j :: 0 <= j < |doc| && j != QuerySelector(doc, SidebarSelector).value ==>
              ToggleSidebar(doc).doc[j].classes == doc[j].classes
  {
    var once := ToggleSidebar(doc).doc;
    ToggleKeepsClassMatches(doc, "stSidebar");
    QuerySelectorAgrees(doc, once, SidebarSelector);
    ToggleKeepsClassMatches(doc, "toggle-btn");
    QuerySelectorAgrees(doc, once, ButtonSelector);
  }

  /** A toggle changes no element's match of a class other than `collapsed`. */
  lemma ToggleKeepsClassMatches(doc: seq<Element>, name: string)
    requires QuerySelector(doc, SidebarSelector).Some? && QuerySelector(doc, ButtonSelector).Some?
    requires name != "collapsed"
    ensures |ToggleSidebar(doc).doc| == |doc|
    ensures forall j :: 0 <= j < |doc| ==>
      (Matches(doc[j], ClassSelector(name)) <==> Matches(ToggleSidebar(doc).doc[j], ClassSelector(name)))
  {
  }

  /** Two calls on a page that has both elements give the sidebar back its
      class set, leave every other element's classes as they were, and end
      with the label of the original state. */
  lemma {:induction false} ToggleTwiceRestoresClasses(doc: seq<Element>)
    requires QuerySelector(doc, SidebarSelector).Some? && QuerySelector(doc, ButtonSelector).Some?
    ensures ToggleSidebar(doc).Completed?
    ensures var again := ToggleSidebar(ToggleSidebar(doc).doc);
      && again.Completed?
      && |again.doc| == |doc|
      && (forall j :: 0 <= j < |doc| ==> forall c :: c in again.doc[j].classes <==> c in doc[j].classes)
      && again.doc[QuerySelector(doc, ButtonSelector).value].text
           == LabelFor("collapsed" in doc[QuerySelector(doc, SidebarSelector).value].classes)
  {
    ToggleKeepsLookups(doc);
    var once := ToggleSidebar(doc).doc;
    ToggleKeepsLookups(once);
    var again := ToggleSidebar(once).doc;
    var s := QuerySelector(doc, SidebarSelector).value;
    forall j | 0 <= j < |doc| ensures forall c :: c in again[j].classes <==> c in doc[j].classes {
      if j != s {
        assert again[j].classes == once[j].classes == doc[j].classes;
      } else {
        assert once[s].classes == ToggleClass(doc[s].classes, "collapsed");
        assert again[s].classes == ToggleClass(once[s].classes, "collapsed");
        ToggleClassTwice(doc[s].classes, "collapsed");
      }
    }
  }

  /** Toggling a token twice gives back the same set of tokens. */
  lemma ToggleClassTwice(classes: seq<string>, name: string)
    ensures forall c :: c in ToggleClass(ToggleClass(classes, name), name) <==> c in classes
  {
  }

  /** The new label depends only on the sidebar's classes: whatever text
      the button had before is overwritten. */
  lemma {:induction false} LabelIgnoresOldText(doc: seq<Element>, newText: string)
    requires QuerySelector(doc, SidebarSelector).Some? && QuerySelector(doc, ButtonSelector).Some?
    ensures var b := QuerySelector(doc, ButtonSelector).value;
      var relabelled := doc[b := doc[b].(text := newText)];
      ToggleSidebar(relabelled) == ToggleSidebar(doc)
  {
    var b := QuerySelector(doc, ButtonSelector).value;
    var relabelled := doc[b := doc[b].(text := newText)];
    QuerySelectorAgrees(doc, relabelled, SidebarSelector);
    QuerySelectorAgrees(doc, relabelled, ButtonSelector);
    WritesIgnoreButtonText(doc, QuerySelector(doc, SidebarSelector).value, b, newText);
  }

  /** The two writes of a toggle, with the sidebar at `s` and the button at
      `b`, leave the same page whatever text the button had. */
  lemma WritesIgnoreButtonText(doc: seq<Element>, s: nat, b: nat, newText: string)
    requires s < |doc| && b < |doc|
    ensures var relabelled := doc[b := doc[b].(text := newText)];
      var t1 := doc[s := doc[s].(classes := ToggleClass(doc[s].classes, "collapsed"))];
      var t2 := relabelled[s := relabelled[s].(classes := ToggleClass(relabelled[s].classes, "collapsed"))];
      var newLabel := LabelFor("collapsed" in t1[s].classes);
      && ("collapsed" in t2[s].classes <==> "collapsed" in t1[s].classes)
      && t1[b := t1[b].(text := newLabel)] == t2[b := t2[b].(text := newLabel)]
  {
  }
}

=== FILE: text.dfy ===
/**
 String operations the Python and the JavaScript code both lean on: Python's
 `str.lower()` (on ASCII letters) and substring search, which is Python's
 `needle in haystack` and the `*=` of a CSS attribute selector.
 */
module Text {
  /** `str.lower()` on one character, for the ASCII letters; every other
      character (the Hangul of the menu names among them) is its own lower case. */
  function LowerChar(c: char): char {
    if 'A' <= c <= 'Z' then (c as int + 32) as char else c
  }

  function Lower(s: string): (r: string)
    ensures |r| == |s|
    ensures forall i :: 0 <= i < |s| ==> r[i] == LowerChar(s[i])
  {
    if |s| == 0 then [] else [LowerChar(s[0])] + Lower(s[1..])
  }

  /** Lowering twice is lowering once. */
  lemma LowerIdempotent(s: string)
    ensures Lower(Lower(s)) == Lower(s)
  {
    assert forall i :: 0 <= i < |s| ==> LowerChar(LowerChar(s[i])) == LowerChar(s[i]);
  }

  /** Python's `needle in haystack` on strings. */
  predicate Contains(haystack: string, needle: string)
    ensures Contains(haystack, needle) ==> |needle| <= |haystack|
    ensures |needle| == 0 ==> Contains(haystack, needle)
    decreases |haystack|
  {
    needle <= haystack || (|haystack| > 0 && Contains(haystack[1..], needle))
  }

  /** The needle sits in the haystack starting at offset `i`. */
  predicate OccursAt(haystack: string, needle: string, i: int) {
    0 <= i && i + |needle| <= |haystack| && haystack[i..i + |needle|] == needle
  }

  /** `Contains` holds exactly when the needle occurs at some offset. */
  lemma {:induction false} ContainsAt(haystack: string, needle: string)
    ensures Contains(haystack, needle) <==> exists i :: OccursAt(haystack, needle, i)
    decreases |haystack|
  {
    if |haystack| > 0 {
      var tail := haystack[1..];
      ContainsAt(tail, needle);
      if Contains(tail, needle) {
        var i :| OccursAt(tail, needle, i);
        assert haystack[i + 1..i + 1 + |needle|] == tail[i..i + |needle|];
        assert OccursAt(haystack, needle, i + 1);
      }
      if needle <= haystack {
        assert OccursAt(haystack, needle, 0);
      }
      if exists i :: OccursAt(haystack, needle, i) {
        var i :| OccursAt(haystack, needle, i);
        if i == 0 {
          assert needle <= haystack;
        } else {
          assert tail[i - 1..i - 1 + |needle|] == haystack[i..i + |needle|];
          assert OccursAt(tail, needle, i - 1);
        }
      }
    } else {
      if needle <= haystack {
        assert OccursAt(haystack, needle, 0);
      }
      if exists i :: OccursAt(haystack, needle, i) {
        var i :| OccursAt(haystack, needle, i);
        assert needle == [];
      }
    }
  }
}

=== FILE: verdict_comparison.dfy ===
/**
 The two daily-worker pages side by side. Both count the same period and the
 same fourteen days, and agree on condition 1, condition 2 and the general
 verdict; they disagree on the construction verdict. daily_worker_eligibility1.py
 (like app/eligibility_logic.py) grants it when either condition holds, the
 calendar page's script only when both hold.
 */
module VerdictComparison {
  import opened CivilDate
  import opened DateRange
  import opened DateFormat
  import opened DailyWorkerForm
  import opened Sequences
  import DailyWorkerCalendar
  import CalendarScript

  /** The window's facts every lemma below relies on. */
  predicate IsWindow(applyDate: Date, window: seq<Date>) {
    && |window| == 14
    && (forall k :: 0 <= k < 14 ==> Valid(window[k]) && DayNumber(window[k]) == DayNumber(applyDate) - 14 + k)
  }

  /** A pick in the fourteen days has its text among the window's texts. */
  lemma PickInWindowHasText(applyDate: Date, window: seq<Date>, picks: seq<Date>, d: Date)
    requires IsWindow(applyDate, window) && Valid(d)
    requires CalendarScript.AllFormattable(window) && CalendarScript.AllFormattable(picks)
    requires d in picks && InWindowBefore(applyDate, d)
    ensures Format(d) in CalendarScript.FormatAll(window) && Format(d) in CalendarScript.FormatAll(picks)
  {
    var j :| 0 <= j < |picks| && picks[j] == d;
    var k := DayNumber(d) - (DayNumber(applyDate) - 14);
    DayNumberInjective(window[k], d);
    assert CalendarScript.FormatAll(window)[k] == Format(d);
    assert CalendarScript.FormatAll(picks)[j] == Format(d);
  }

  /** A text shared by the window and the picks is the text of a pick in the
      fourteen days. */
  lemma SharedTextIsPickInWindow(applyDate: Date, window: seq<Date>, picks: seq<Date>, x: string)
    requires IsWindow(applyDate, window)
    requires CalendarScript.AllFormattable(window) && CalendarScript.AllFormattable(picks)
    requires x in CalendarScript.FormatAll(window) && x in CalendarScript.FormatAll(picks)
    ensures exists d :: d in picks && InWindowBefore(applyDate, d)
  {
    var texts := CalendarScript.FormatAll(window);
    var pickTexts := CalendarScript.FormatAll(picks);
    var k :| 0 <= k < 14 && texts[k] == x;
    var j :| 0 <= j < |picks| && pickTexts[j] == x;
    assert Format(window[k]) == Format(picks[j]);
    FormatOrder(window[k], picks[j]);
    assert picks[j] in picks && InWindowBefore(applyDate, picks[j]);
  }

  /** No pick's text is among the fourteen days' texts exactly when no pick
      falls in the fourteen days before the application date. */
  lemma FourteenTextsMeetPicks(applyDate: Date, window: seq<Date>, picks: seq<Date>)
    requires IsWindow(applyDate, window)
    requires CalendarScript.AllFormattable(window) && CalendarScript.AllFormattable(picks)
    ensures (forall x :: x in CalendarScript.FormatAll(window) ==> x !in CalendarScript.FormatAll(picks))
        <==> (forall d :: d in picks ==> !InWindowBefore(applyDate, d))
  {
    var texts := CalendarScript.FormatAll(window);
    var pickTexts := CalendarScript.FormatAll(picks);
    if exists d :: d in picks && InWindowBefore(applyDate, d) {
      var d :| d in picks && InWindowBefore(applyDate, d);
      assert Valid(d) by {
        var j :| 0 <= j < |picks| && picks[j] == d;
      }
      PickInWindowHasText(applyDate, window, picks, d);
    }
    if exists x :: x in texts && x in pickTexts {
      var x :| x in texts && x in pickTexts;
      SharedTextIsPickInWindow(applyDate, window, picks, x);
    }
  }

  /** On the same application date and the same distinct worked days, the
      calendar page's script and the form page compute the same period
      length, the same worked-day count, the same condition 1 (`noWork14Days`
      is the form's condition 2) and the same general verdict; the script's
      construction verdict is the conjunction of the two conditions where the
      form's is their disjunction. */
  lemma {:induction false} ScriptAgainstForm(applyDate: Date, picks: seq<Date>)
    requires HasPreviousMonth(applyDate) && applyDate.year <= 9999
    requires CalendarScript.AllFormattable(picks) && Distinct(picks)
    ensures CalendarScript.AllFormattable(GetDateRange(applyDate).0)
    ensures var form := Assess(applyDate, picks);
      var bounds := DailyWorkerCalendar.FourteenDayBounds(applyDate);
      var script := CalendarScript.CalculateResult(CalendarScript.FormatAll(GetDateRange(applyDate).0),
                                                   bounds.0, bounds.1, CalendarScript.FormatAll(picks));
      && script.totalDays == form.totalDays
      && script.workedDays == form.workedDays
      && script.condition1 == form.condition1
      && script.noWork14Days == form.condition2
      && script.general == form.general
      && (script.construction <==> form.condition1 && form.condition2)
      && (form.construction <==> form.condition1 || form.condition2)
  {
    ScriptOnCalendar(applyDate, picks);
    SelectedCount(picks);
  }

  /** The calendar page's script on the look-back period and the picks'
      texts: it counts the period's days and the picks, and `noWork14Days`
      holds exactly when no pick falls in the fourteen days before the
      application date. */
  lemma {:induction false} ScriptOnCalendar(applyDate: Date, picks: seq<Date>)
    requires HasPreviousMonth(applyDate) && applyDate.year <= 9999
    requires CalendarScript.AllFormattable(picks)
    ensures CalendarScript.AllFormattable(GetDateRange(applyDate).0)
    ensures var bounds := DailyWorkerCalendar.FourteenDayBounds(applyDate);
      var script := CalendarScript.CalculateResult(CalendarScript.FormatAll(GetDateRange(applyDate).0),
                                                   bounds.0, bounds.1, CalendarScript.FormatAll(picks));
      && script.totalDays == DayNumber(applyDate) - DayNumber(FirstOfPrevMonth(applyDate)) + 1
      && script.workedDays == |picks|
      && (script.condition1 <==> 3 * |picks| < script.totalDays)
      && (script.noWork14Days <==> forall d :: d in picks ==> !InWindowBefore(applyDate, d))
      && script.general == script.condition1
      && (script.construction <==> script.condition1 && script.noWork14Days)
  {
    CalendarScript.CalendarFourteenDays(applyDate);
    var cal := GetDateRange(applyDate).0;
    var bounds := DailyWorkerCalendar.FourteenDayBounds(applyDate);
    ScriptOnTexts(applyDate, CalendarScript.FormatAll(cal), bounds.0, bounds.1, FourteenDayWindow(applyDate), picks);
  }

  /** The script's verdict on the fourteen days, for any calendar texts and
      bounds that filter down to the window's texts. */
  lemma ScriptOnTexts(applyDate: Date, calTexts: seq<string>, lo: string, hi: string,
                      window: seq<Date>, picks: seq<Date>)
    requires IsWindow(applyDate, window)
    requires CalendarScript.AllFormattable(window) && CalendarScript.AllFormattable(picks)
    requires CalendarScript.FilterBetween(calTexts, lo, hi) == CalendarScript.FormatAll(window)
    ensures CalendarScript.CalculateResult(calTexts, lo, hi, CalendarScript.FormatAll(picks)).noWork14Days
            <==> forall d :: d in picks ==> !InWindowBefore(applyDate, d)
  {
    FourteenTextsMeetPicks(applyDate, window, picks);
  }

  /** The two pages part ways: whoever worked only on the day before the
      application date may apply as a construction daily worker on the form
      page, but not on the calendar page. */
  lemma {:induction false} ConstructionVerdictsDiffer(applyDate: Date)
    requires HasPreviousMonth(applyDate) && applyDate.year <= 9999
    ensures DayNumber(applyDate) > 1
    ensures var picks := [MinusDays(applyDate, 1)];
      var bounds := DailyWorkerCalendar.FourteenDayBounds(applyDate);
      && CalendarScript.AllFormattable(picks)
      && CalendarScript.AllFormattable(GetDateRange(applyDate).0)
      && Assess(applyDate, picks).construction
      && !CalendarScript.CalculateResult(CalendarScript.FormatAll(GetDateRange(applyDate).0),
                                         bounds.0, bounds.1, CalendarScript.FormatAll(picks)).construction
  {
    LateEnoughForWindow(applyDate);
    var worked := MinusDays(applyDate, 1);
    var picks := [worked];
    assert CalendarScript.AllFormattable(picks) by {
      DailyWorkerCalendar.YearNotAfter(worked, applyDate);
    }
    assert Distinct(picks);
    OnlyDayBeforeWorked(applyDate);
    ScriptAgainstForm(applyDate, picks);
  }

  /** On the form page, whoever worked only on the day before the application
      date meets condition 1 and fails condition 2. */
  lemma {:induction false} OnlyDayBeforeWorked(applyDate: Date)
    requires HasPreviousMonth(applyDate)
    ensures DayNumber(applyDate) > 1
    ensures var a := Assess(applyDate, [MinusDays(applyDate, 1)]);
      a.condition1 && !a.condition2 && a.construction
  {
    LateEnoughForWindow(applyDate);
    var worked := MinusDays(applyDate, 1);
    OneWorkedDay(applyDate, worked);
  }

  /** The assessment for a single worked day in the fourteen days. */
  lemma OneWorkedDay(applyDate: Date, worked: Date)
    requires HasPreviousMonth(applyDate) && Valid(worked)
    requires InWindowBefore(applyDate, worked)
    ensures var a := Assess(applyDate, [worked]);
      a.condition1 && !a.condition2 && a.construction
  {
    var form := Assess(applyDate, [worked]);
    assert worked in [worked];
    assert SelectedSet([worked]) == {worked};
    LookBackSpan(applyDate, FirstOfPrevMonth(applyDate));
  }
}

=== FILE: wrappers.dfy ===
/** Optional values and fallible results shared by every module of the model. */
module Wrappers {

  /** A value that may be absent: Python's `None`, a JavaScript `null`. */
  datatype Option<+T> = None | Some(value: T)

  /** The outcome of an operation that can raise instead of returning. */
  datatype Result<+T, +E> = Ok(value: T) | Err(error: E)
}
